=== FILE: README.md ===
# office-eq inventory reconciliation, modelled in Dafny

office-eq tracks office equipment. Each **asset** record has two fields of
interest here:

- `quantity`: an aggregate counter;
- `assetIds`: a pool of individually identified units.

**Purchases** bring units in. Each purchase line carries a quantity and the
exact unit ids bought. **Asset requests** take units out when they are
approved. Two read endpoints report units:

- the stored pool of an asset;
- the *available ids*, recomputed from purchase history minus the ids that
  approved requests consume.

This project models the route handlers that move stock, and the pure helpers
of `src/utils/helpers.ts`.

Each handler is a function from the database to an `Outcome`. The database is
three maps keyed by document id: assets, purchases and requests. An `Outcome`
holds:

- the database after the handler ran;
- the response: `Ok`, or the error the handler throws (`NotFound`,
  `AppError(message, status)`, or a schema `ValidationFailed`).

The handlers are not transactional. The create-purchase loop can fail after
some of its increments were issued, so "nothing changes on failure" is proved
for each handler separately rather than assumed.

Modules:

- `Wrappers`: `Option`.
- `Seqs`: sequence facts.
  - `Keep`: the filter behind `$pull … $in` and `Array.filter(!includes)`.
  - Occurrence counts.
  - Distinctness: `new Set(xs).size === xs.length`.
- `Inventory`: the records of `src/types/index.ts`, errors and outcomes, and
  the two asset updates the handlers share:
  - `$inc` on `quantity`;
  - `$inc` plus `$pull` on the unit pool.
- `Requests`: from `src/routes/assetRequest.routes.ts`:
  - legacy approve;
  - create-and-approve;
  - status approve/reject.
- `Purchases`: from `src/routes/purchase.routes.ts`:
  - create, update and delete;
  - the purchased-ids listing.
- `Views`: from `src/routes/asset.routes.ts`:
  - the stored asset-ids read;
  - the available-ids resolver.
- `Helpers`: slugify, capitalize, truncate, isValidObjectId, removeEmpty,
  pick, omit.

MongoDB and JavaScript semantics are written out explicitly:

- `findByIdAndUpdate` does not upsert, so an update of a missing asset changes
  nothing.
- `$inc` runs no validators, so a counter may go negative.
- `$pull` with `$in` removes every occurrence of every listed id.
- An update field whose value is `undefined` is dropped, so the stored value
  stays.
- For `||`, the empty string and `undefined` are falsy, and so is the number 0.

The invariant `quantity == |assetIds|` is **not** maintained by the code.
Two members show how the handlers as written break it:

- `Requests.LegacyApproveDesyncsCounter`: legacy approval lowers the counter
  and pulls nothing;
- `Requests.StatusReapproveDesyncsCounter`: approving an approved request
  again with the same ids lowers the counter while the pull finds nothing
  left to remove.

`Requests.StatusApproveRepeats` shows that such a second approval is accepted
and lowers the counter twice.

A third shows that the corrected create-and-approve shortcut would break it
too, because it has no stock check: `Requests.CreateAndApproveOverdraws`.
The shortcut as written never reaches its `$inc` (see Findings).

Other members prove it only as conditional preservation:

- `Inventory.AllocateKeepsCounter`;
- `Requests.CreateAndApproveKeepsCounter`;
- `Requests.StatusApproveKeepsCounter`.

### Where the code departs from a consistent ledger

- **Purchase intake is not all-or-nothing.** Each line's counter increment is
  issued before that line's id count is checked. A mismatch throws and saves
  nothing, but the increments already issued stay. The same holds when every
  count matches but `save()` then fails schema validation (an empty unit id,
  invoice number or creator): every increment stays and nothing is saved.
  Intake adds no unit id to any asset's pool.
- **Status approval has no re-approval guard and no stock check.** Approving
  an approved request again lowers the counter again. Only the legacy
  `/approve/:id` endpoint refuses re-approval and checks the counter. Approval
  does not require the ids to be in the pool; ids that are not in the pool are
  silently ignored by the pull.
- **Rejection is allowed from any status.** Rejecting an approved request
  returns nothing to stock, yet the resolver lists its ids as available
  again (`Views.RejectApprovedReopensIds`).
- **Nothing ties the resolver to the stored pool.** The available-ids resolver
  reads purchases and approved requests, and the stored-ids read reads the
  asset's pool. No handler keeps the two equal.
- **Create-and-approve cannot commit.** It builds a request document that
  lacks three of the schema's required fields, so `save()` throws before any
  asset update (see Findings).

## Model

| member | source | states |
|---|---|---|
| Inventory.IncQuantity | src/routes/assetRequest.routes.ts:120-122 | a `$inc` of `quantity` changes only that field of the addressed asset by `delta`; a missing asset stays missing; every other asset is unchanged |
| Inventory.Allocate | src/routes/assetRequest.routes.ts:176-179 | the `$inc`+`$pull` allocation lowers the counter by `n` and leaves a pool that holds exactly the old pool's ids that were not pulled; other assets are unchanged |
| Inventory.AllocateKeepsCounter | src/routes/assetRequest.routes.ts:240-243 | if the counter equals the pool size and each of `k` distinct pulled ids occurs exactly once in the pool, then after pulling them with a decrement of `k` the counter still equals the pool size, which has dropped by `k` |
| Requests.LegacyApprove | src/routes/assetRequest.routes.ts:84-133 | it succeeds exactly when the request exists and is not yet approved, its asset exists, and the requested quantity is at most the counter; on success the request is stamped approved with approver and time and only the counter drops, staying non-negative; the errors come in source order: a missing request gives NotFound("Asset request"), an approved one "Request already approved" (400), a missing asset NotFound("Asset"), a short counter "Not enough stock for this asset" (400); on each error nothing changes |
| Requests.LegacyApproveOnce | src/routes/assetRequest.routes.ts:96-98 | a second legacy approval of the same request is refused with "Request already approved" and changes nothing |
| Requests.LegacyApproveDesyncsCounter | src/routes/assetRequest.routes.ts:112-122 | legacy approval of a nonzero quantity breaks `quantity == |assetIds|` for an asset where it held, because the pool is not pulled |
| Requests.AssignmentError | src/routes/assetRequest.routes.ts:150-157 | create-and-approve input is refused exactly when the id count differs from the quantity, with "Product IDs count mismatch" (checked first), or the ids contain a duplicate, with "Duplicate Product ID not allowed"; both are 400 |
| Requests.CreateAndApprove | src/routes/assetRequest.routes.ts:136-193 | corrected shortcut: it succeeds exactly when the count and distinctness checks pass, and otherwise answers "Product IDs count mismatch" or "Duplicate Product ID not allowed"; it then stores a new approved request for the given product and user, with the given ids, approver and approval time, defaulting the product name to "Unnamed Asset" and the message to "", and allocates the ids from the asset; on error nothing changes |
| Requests.CreateAndApproveOverdraws | src/routes/assetRequest.routes.ts:175-179 | the corrected shortcut has no stock check, so assigning one or more units of an asset whose counter is 0 succeeds and leaves a negative counter |
| Requests.CreateAndApproveKeepsCounter | src/routes/assetRequest.routes.ts:175-179 | if every assigned id occurs exactly once in the pool and the counter matched the pool, the counter still matches after create-and-approve |
| Requests.MissingRequired | src/models/AssetRequest.model.ts:11-40 | the schema's required-field check reports no path exactly when the user email, product id, product name, category, subcategory and unit are non-empty and the quantity is at least 1 |
| Requests.CreateAndApproveAsWritten | src/routes/assetRequest.routes.ts:150-179 | create-and-approve as written returns the count/duplicate error when those checks fail, and changes nothing on any error |
| Requests.CreateAndApproveAsWrittenNeverCommits | src/routes/assetRequest.routes.ts:160-173 | for every input that passes the count and duplicate checks, the handler as written fails schema validation, "category" among the paths, and the database is unchanged; the corrected handler succeeds on the same input |
| Requests.EffectiveQuantity | src/routes/assetRequest.routes.ts:228 | the effective quantity is the body quantity when nonzero, else the stored quantity when nonzero, else the number of ids |
| Requests.ApprovalError | src/routes/assetRequest.routes.ts:221-237 | an approval body is refused exactly when the product id is missing or empty or the id array is missing ("productId and productIds array are required for approval"), else when its length differs from the effective quantity ("Product IDs count must match quantity"), else when it has a duplicate ("Duplicate Product ID not allowed"); each is 400 and the first failing check decides |
| Requests.UpdateStatus | src/routes/assetRequest.routes.ts:196-291 | a missing request gives NotFound; an unknown status is refused; approval succeeds exactly when the body passes the approval checks, and otherwise answers the first failing check's error with nothing changed; then allocates the ids from the named asset and rewrites the request as approved with that product, those ids, quantity equal to their number and no reject reason; the product name, approver, approver name and message are taken from the body when truthy (approver and approver name standing in for each other), else kept; user, category, subcategory, unit and approval time are kept; rejection always succeeds and the stored request becomes the old one with status rejected and reason the body's reason when truthy, else "No reason provided"; it changes no asset; every error leaves the database unchanged |
| Requests.StatusApproveKeepsCounter | src/routes/assetRequest.routes.ts:240-243 | if every submitted id occurs exactly once in the pool and the counter matched the pool, the status approval keeps them matched |
| Requests.StatusReapproveDesyncsCounter | src/routes/assetRequest.routes.ts:220-257 | approving an approved request again with the same body succeeds, leaves the pool as the first approval left it and lowers the counter by the id count again, so a counter that matched the pool after the first approval no longer does |
| Requests.StatusApproveRepeats | src/routes/assetRequest.routes.ts:220-257 | an already approved request can be approved again with another valid id list, and the counter then drops by both id counts |
| Requests.RejectIdempotent | src/routes/assetRequest.routes.ts:268-273 | rejecting a second time with the same body succeeds and changes nothing |
| Purchases.Shift | src/routes/purchase.routes.ts:138-158 | issuing one `$inc` per counted item (product id and quantity truthy) in item order changes each asset's counter by its items' signed total quantity and nothing else |
| Purchases.FirstMismatch | src/routes/purchase.routes.ts:61-67 | the index of the first item whose id count differs from its quantity: every earlier item matches and the item at the index does not |
| Purchases.IntakeItems | src/routes/purchase.routes.ts:51-68 | the intake loop fails exactly when some item's id count differs from its quantity; the counters are raised by the items up to and including the first bad one; on success every item is stored with its asset's name or "Unknown" |
| Purchases.ItemsMissingRequired | src/models/Purchase.model.ts:9-39 | the item paths schema validation reports: none exactly when every item has a product id, a quantity of at least 1 and no empty unit id; "items.assetIds" is reported exactly when some item carries an empty unit id |
| Purchases.PurchaseMissingRequired | src/models/Purchase.model.ts:41-78 | the paths `save()` reports: none exactly when the invoice number and creator are non-empty and every item is complete; "invoiceNo" and "createdBy" are reported exactly when empty, "items.assetIds" exactly when some unit id is empty |
| Purchases.CreatePurchase | src/routes/purchase.routes.ts:41-89 | creation succeeds exactly when every item's id count equals its quantity and the document passes schema validation; a count mismatch answers "Asset ID count must match quantity", otherwise a schema failure answers with the failing paths; on either failure no purchase is saved, while the counters keep the increments issued so far; on success the purchase is stored with named items; no request and no unit pool changes |
| Purchases.CreateSaveFailureKeepsIncrements | src/routes/purchase.routes.ts:51-81 | a purchase whose counts match but which carries an empty unit id is refused by `save()` with "items.assetIds" among the paths, nothing is stored, and every asset's counter stays raised by the whole purchase |
| Purchases.UpdatePurchase | src/routes/purchase.routes.ts:111-173 | a missing purchase gives NotFound; new items whose ids differ from the stored ids at the same index give 403 and change nothing; otherwise the patch's defined fields are written, and each product's counter moves by its new total minus its old total |
| Purchases.ResubmitKeepsStock | src/routes/purchase.routes.ts:124-158 | resubmitting the stored items passes the write-once check and leaves every asset exactly as it was |
| Purchases.DeletePurchase | src/routes/purchase.routes.ts:176-205 | a missing purchase gives NotFound; otherwise the purchase is removed and each product's counter drops by that purchase's total for it, with no other change |
| Purchases.CreateThenDeleteRestores | src/routes/purchase.routes.ts:41-89 | a successful create followed by a delete of the same purchase restores the whole database |
| Purchases.QtyForIgnoresNames | src/routes/purchase.routes.ts:54 | setting each item's asset name does not change the quantities it carries |
| Purchases.ItemIds | src/routes/purchase.routes.ts:221-225 | every id listed for one purchase is carried by one of its items for the product |
| Purchases.PurchasedIds | src/routes/purchase.routes.ts:214-226 | an id is in the listing exactly when it is in the listing of one of the returned purchases |
| Purchases.PurchasedIdsAppend | src/routes/purchase.routes.ts:218-226 | the listing over two batches of purchases is the first batch's listing followed by the second's |
| Purchases.PurchasedIdsMember | src/routes/purchase.routes.ts:207-233 | an id is listed for a product exactly when some item for that product, in some returned purchase, carries it |
| Purchases.ItemIdsMember | src/routes/purchase.routes.ts:221-225 | within one purchase, an id is listed exactly when an item for the product carries it |
| Purchases.OtherProductsContributeNothing | src/routes/purchase.routes.ts:214-216 | a purchase with no item for the product adds nothing to its listing |
| Purchases.CreateExtendsListing | src/routes/purchase.routes.ts:41-89 | after a successful create, the earlier listing order followed by the new purchase (when it has an item for the product) lists exactly the stored purchases with such an item, and its listing is the earlier listing followed by the new purchase's ids for the product; for any order the query may return, the listed ids are the earlier ones plus the new ones as a multiset; the stored pool is unchanged |
| Purchases.DeleteShrinksListing | src/routes/purchase.routes.ts:176-205 | after a delete, the earlier listing order without the deleted id lists exactly the remaining purchases with an item for the product, and for any order the query may return, the listing loses exactly the deleted purchase's ids for the product, as a multiset |
| Purchases.SameListing | src/routes/purchase.routes.ts:214-226 | two duplicate-free orders of the same stored purchases give listings with the same ids, as multisets |
| Purchases.ItemIdsIgnoresNames | src/routes/purchase.routes.ts:54 | setting each item's asset name does not change the ids it lists |
| Views.StoredAssetIds | src/routes/asset.routes.ts:105-124 | the stored-ids read answers the asset's pool, or `[]` when the asset does not exist |
| Views.StatusApprovePullsPool | src/routes/assetRequest.routes.ts:240-243 | after a successful status approval the named product's stored pool is its old pool without the approved ids, and every other product's pool is unchanged |
| Views.LegacyApproveKeepsPools | src/routes/assetRequest.routes.ts:112-122 | legacy approval leaves every stored pool unchanged |
| Views.PurchasesKeepPools | src/routes/purchase.routes.ts:41-205 | purchase create, purchase update and purchase delete leave every stored pool unchanged |
| Views.UsedIds | src/routes/asset.routes.ts:152-165 | the used ids are exactly the non-empty product ids and the unit ids of the approved requests for the product |
| Views.AvailableIds | src/routes/asset.routes.ts:127-174 | the available ids are a subsequence of the purchased listing and hold exactly the listed ids that are not used |
| Views.AvailableIdsCounts | src/routes/asset.routes.ts:167 | an unused id is available as many times as it was purchased; a used id is not available at all |
| Views.AvailableFromStore | src/routes/asset.routes.ts:133-167 | over the purchases the query returns, an id is available exactly when some stored purchase has an item for the product carrying it and no approved request for the product uses it |
| Views.AvailableIgnoresOrder | src/routes/asset.routes.ts:133-167 | whatever order the query returns the stored purchases in, the same ids are available, each as often |
| Views.AvailableWithoutApprovals | src/routes/asset.routes.ts:145-167 | with no approved request for the product, the available ids are the whole purchased listing in order |
| Views.StatusApproveHidesIds | src/routes/asset.routes.ts:152-167 | after a status approval, none of the approved ids is available for the approved product |
| Views.RejectApprovedReopensIds | src/routes/asset.routes.ts:152-167 | rejecting an approved request makes each of its unit ids that was purchased for the product and that no other approved request uses available again, while every asset, counter and pool included, stays as the approval left it |
| Views.RejectUnapprovedKeepsAvailability | src/routes/asset.routes.ts:152-167 | rejecting a request that was not approved changes no product's available ids |
| Seqs.Keep | src/routes/asset.routes.ts:167 | the filter keeps exactly the elements outside the dropped set and never lengthens the sequence |
| Seqs.KeepOccurrences | src/routes/asset.routes.ts:167 | after the filter, each element outside the dropped set occurs as often as before, and dropped elements do not occur |
| Seqs.KeepIsSubsequence | src/routes/asset.routes.ts:167 | the filter's output is a subsequence of its input |
| Seqs.KeepLength | src/routes/assetRequest.routes.ts:242 | the length after the pull is the old length minus the number of positions holding a pulled id |
| Seqs.CountInDistinct | src/routes/assetRequest.routes.ts:242 | if each of `k` distinct ids occurs exactly once in the pool, exactly `k` positions of the pool hold a pulled id |
| Seqs.DistinctSize | src/routes/assetRequest.routes.ts:154-155 | a sequence's set of elements has as many members as the sequence has elements exactly when the sequence has no duplicates |
| Helpers.Lower | src/utils/helpers.ts:10 | lower-casing keeps the length and maps every character to its lower-case form |
| Helpers.DropWhile | src/utils/helpers.ts:15 | the result is a suffix of the input that does not start with a class character, and every character removed before it is in the class |
| Helpers.DropWhileEnd | src/utils/helpers.ts:16 | the result is a prefix of the input that does not end with a class character, and every character removed after it is in the class |
| Helpers.Squash | src/utils/helpers.ts:12-14 | replacing each run of class characters by one character never lengthens the text |
| Helpers.SquashKeepsOthers | src/utils/helpers.ts:12-14 | every character that is outside the class and differs from the replacement survives the run replacement, in order and as often as before |
| Helpers.Trim | src/utils/helpers.ts:11 | the trimmed text neither starts nor ends with whitespace, and it is a contiguous slice of the input with only whitespace before and after it |
| Helpers.Filter | src/utils/helpers.ts:13 | removing the non-word characters leaves only characters of the kept class, each kept character as often as in the input, in input order |
| Helpers.SquashNoAdjacent | src/utils/helpers.ts:14 | after dash runs are collapsed into one dash, no two dashes are adjacent |
| Helpers.SquashRemoves | src/utils/helpers.ts:12 | after whitespace runs are replaced by a dash, no whitespace remains |
| Helpers.SquashIsolated | src/utils/helpers.ts:14 | collapsing dash runs changes nothing in a text whose dashes are already isolated |
| Helpers.SquashNone | src/utils/helpers.ts:12 | a text with no class character is left unchanged by the run replacement |
| Helpers.FilterTrim | src/utils/helpers.ts:11 | trimming removes whitespace only: every non-whitespace character survives, in order |
| Helpers.Slugify | src/utils/helpers.ts:7-17 | the slug contains only `[a-z0-9_-]`, never two dashes in a row, and no dash at either end |
| Helpers.SlugifyKeepsWords | src/utils/helpers.ts:7-17 | the word characters of the slug are exactly those of the lower-cased text, in the same order and as often |
| Helpers.SlugifyFixesSlugs | src/utils/helpers.ts:7-17 | slugifying a text that is already a slug returns it unchanged |
| Helpers.SlugifyIdempotent | src/utils/helpers.ts:7-17 | slugifying twice gives the same result as slugifying once |
| Helpers.Capitalize | src/utils/helpers.ts:19-21 | the result has the same length, its first character is upper-cased and the rest are lower-cased, and it equals the input up to letter case |
| Helpers.CapitalizeIdempotent | src/utils/helpers.ts:19-21 | capitalizing twice gives the same result as capitalizing once, and the input's letter case does not affect the result |
| Helpers.Truncate | src/utils/helpers.ts:23-25 | on ASCII text, a text no longer than the limit is returned as is; a longer one becomes its first `max(limit, 0)` characters followed by "..." |
| Helpers.TruncateIdempotent | src/utils/helpers.ts:23-25 | truncating an already truncated text to the same limit changes nothing |
| Helpers.IsValidObjectId | src/utils/helpers.ts:48-50 | an id is valid exactly when it has 24 characters, each a hexadecimal digit of either case |
| Helpers.ObjectIdRoundTrip | src/utils/helpers.ts:48-50 | the lower-case hex spelling of any 12-byte ObjectId is a valid id and reads back as the same bytes |
| Helpers.ValidObjectIdIsHexOfBytes | src/utils/helpers.ts:48-50 | every valid id reads as 12 bytes whose hex spelling is the id lower-cased |
| Helpers.RemoveEmpty | src/utils/helpers.ts:52-59 | the result holds exactly the entries whose value is neither null, undefined nor the empty string, with their values unchanged |
| Helpers.RemoveEmptyIdempotent | src/utils/helpers.ts:52-59 | removing empty entries from an already cleaned object changes nothing |
| Helpers.Pick | src/utils/helpers.ts:61-71 | the result holds exactly the requested keys that the object has, with the object's values |
| Helpers.Omit | src/utils/helpers.ts:73-80 | the result holds exactly the object's keys that are not listed, with their values unchanged |
| Helpers.PickOmitPartition | src/utils/helpers.ts:61-80 | `pick` and `omit` with the same keys split an object into two halves with no key in common that together make up the object |

## Left out

- Request validation (zod schemas and the `validate` middleware) is not modelled. The handlers are modelled on the bodies that validation lets through. Purchase items are assumed to carry a product id and a quantity of at least 1, as the item schema requires.
- Validation of POST /purchases rejects every request, so the create handler is unreachable through the route; the model starts at the handler. The middleware (`src/middleware/validate.ts:9-15`) parses the object `{ body, params, query }`. The create schema (`src/validation/purchase.validation.ts:13-23`) demands `invoiceNo`, `purchasePrice`, `paidAmount`, `dueAmount`, `items` and `createdBy` at that object's top level, where they are always missing.
- Quantities are integers. The request schemas accept any JavaScript number of at least 1 (`z.number().min(1)`), so a fractional quantity such as 1.5 would reach the handlers and move the counters by fractions; this model assumes whole quantities throughout.
- Schema validation failures report the schema path without array indices (`items.assetIds` rather than `items.0.assetIds.1`), and the monetary paths (`purchasePrice`, `unitPrice`, …) are not checked because monetary fields are not modelled.
- Purchases.UpdatePurchase: the update validators that `runValidators` runs on the rewritten purchase are not modelled. New items must carry the stored unit ids, and a product id and a quantity of at least 1 are required by the request schema, so in a database that only ever held validated purchases they cannot fail.
- Purchases.UpdatePurchase: the new items are stored as given. The request schema strips keys it does not list, so in the route the rewritten items carry no `assetName`; the model does not force that.
- Requests.CreateAndApprove: the schema's `lowercase: true` on `userEmail` is not modelled; the e-mail is stored as given rather than lower-cased.
- Timestamps (`createdAt`, `updatedAt`, `sentDate`) are left out. `approvedAt` is an integer parameter `now`, because clocks are outside the model.
- Monetary fields, vendor name/phone/address enrichment, and the email and user lookups are left out. None of them affects stock.
- Concurrency is left out: each handler is one atomic step over the database. The source interleaves separate document updates with no transaction, and no interleaving of concurrent calls is modelled.
- Malformed ids are left out: every id is taken to be a well-formed ObjectId. An id that is not one makes the asset lookup or update throw a cast error, which answers 400. In legacy approval and status approval that throw comes before any write. In the handlers below it comes partway, after earlier writes, and the model does not show those partial states.
- Purchases.CreatePurchase: a malformed product id on item k throws at its asset lookup after the increments of items 0 to k-1, and a malformed vendor id throws after every increment; in both cases nothing is saved.
- Purchases.UpdatePurchase: a malformed product id among the new items throws after every stored item's quantity was reverted and the earlier new items applied, and the purchase is not rewritten.
- Purchases.DeletePurchase: a malformed product id throws partway through the revert loop, after the earlier items were reverted, and the purchase is not removed.
- Requests.CreateAndApprove: with a malformed product id, the corrected handler would store the approved request (its product id is a plain string in the schema) and then throw at the asset update, leaving the asset untouched.
- Database query order is left out. MongoDB promises no order for an unsorted `find`, so the listing and the resolver are stated for every order that returns each matching stored purchase exactly once (`Purchases.ListsFor`). The listed ids are proved the same, as a multiset, for all such orders; their sequence depends on the order chosen.
- The other request and catalog routes are not part of this model: request creation and listing, catalog CRUD, users and dashboard.
- `generateId`, `formatDate`, `formatCurrency` and `sleep` in `src/utils/helpers.ts` are left out. They depend on the clock, on randomness, on locale formatting or on timers.
- Helpers.Slugify: restricted to ASCII input. JavaScript's `\s`, `trim()` and `toLowerCase()` also act on non-ASCII whitespace and letters; this model does not.
- Helpers.Slugify: the proved properties fix the slug's character set, its dash shape and its word characters in order, but not exactly where a dash falls between two words.
- Helpers.Capitalize: restricted to ASCII input, for the same reason.
- Helpers.Truncate: restricted to ASCII input. JavaScript's `length` and `substring` count UTF-16 code units, so a character outside the Basic Multilingual Plane counts twice there; this model does not encode text as UTF-16.
- Helpers.Truncate: the limit is an integer. A fractional limit, which `substring` truncates, is not modelled.
- Helpers.Pick: only own keys are modelled. The `in` operator also sees keys inherited through the prototype chain.
- Helpers.RemoveEmpty: values other than null, undefined, strings, integers and booleans are opaque. `NaN` and other numbers are not distinguished.

## Findings

| source | as written | input that shows it | evidently intended | confidence | as-written member | corrected member |
|---|---|---|---|---|---|---|
| src/routes/assetRequest.routes.ts:160-173 with src/models/AssetRequest.model.ts:24-40 | create-and-approve builds the request document without `category`, `subcategory` and `unit`, then calls `save()`; the schema marks all three as required, so `save()` always throws a validation error and neither the request nor the asset update ever happens | any body that passes the count and duplicate checks, e.g. quantity 1 with `productIds = ["u1"]` | the approved request is stored and the ids are allocated from the asset | high (not executed) | Requests.CreateAndApproveAsWrittenNeverCommits | Requests.CreateAndApprove |

=== FILE: helpers.dfy ===
/**
  The pure helpers of src/utils/helpers.ts: string helpers (`slugify`,
  `capitalize`, `truncate`, `isValidObjectId`) over ASCII text, and record
  helpers (`removeEmpty`, `pick`, `omit`) over finite maps.
 */
module Helpers {
  import opened Seqs

  // ---------------------------------------------------------------------------
  // Character classes (ASCII)
  // ---------------------------------------------------------------------------

  predicate IsAscii(s: string) {
    forall i :: 0 <= i < |s| ==> s[i] as int < 128
  }

  /** JavaScript's `\s` and `trim()` whitespace, restricted to ASCII: tab, LF, VT, FF, CR, space. */
  predicate IsSpace(c: char) {
    c == ' ' || 9 <= c as int <= 13
  }

  predicate IsDash(c: char) {
    c == '-'
  }

  predicate IsUpper(c: char) {
    'A' <= c <= 'Z'
  }

  predicate IsLower(c: char) {
    'a' <= c <= 'z'
  }

  predicate IsDigit(c: char) {
    '0' <= c <= '9'
  }

  /** `\w`: a letter, a digit or '_'. */
  predicate IsWord(c: char) {
    IsUpper(c) || IsLower(c) || IsDigit(c) || c == '_'
  }

  /** `[\w\-]`: a word character or a dash. */
  predicate IsWordOrDash(c: char) {
    IsUpper(c) || IsLower(c) || IsDigit(c) || c == '_' || c == '-'
  }

  /** The characters a slug may contain: `[a-z0-9_-]`. */
  predicate IsSlugChar(c: char) {
    IsLower(c) || IsDigit(c) || c == '_' || c == '-'
  }

  function ToLowerChar(c: char): (d: char) {
    if IsUpper(c) then (c as int + 32) as char else c
  }

  function ToUpperChar(c: char): (d: char) {
    if IsLower(c) then (c as int - 32) as char else c
  }

  /** Every character of `s` satisfies `q`. */
  predicate All(s: string, q: char -> bool) {
    forall i :: 0 <= i < |s| ==> q(s[i])
  }

  /** No two neighbouring characters both satisfy `p`. */
  predicate NoAdjacent(s: string, p: char -> bool) {
    forall i :: 0 <= i < |s| - 1 ==> !(p(s[i]) && p(s[i + 1]))
  }

  // ---------------------------------------------------------------------------
  // String building blocks
  // ---------------------------------------------------------------------------

  /** `toLowerCase()` on ASCII text. */
  function Lower(s: string): (r: string)
    ensures |r| == |s|
    ensures forall i :: 0 <= i < |s| ==> r[i] == ToLowerChar(s[i])
  {
    seq(|s|, i requires 0 <= i < |s| => ToLowerChar(s[i]))
  }

  /** `s` without its leading run of `p`-characters (`replace(/^p+/, '')`). */
  function DropWhile(s: string, p: char -> bool): (r: string)
    ensures |r| <= |s| && r == s[|s| - |r|..]
    ensures r != [] ==> !p(r[0])
    ensures (s == [] || !p(s[0])) ==> r == s
    ensures s != [] && p(s[0]) ==> |r| < |s|
    ensures forall i :: 0 <= i < |s| - |r| ==> p(s[i])
  {
    if s == [] || !p(s[0]) then s
    else
      var r := DropWhile(s[1..], p);
      assert forall i :: 1 <= i < |s| - |r| ==> s[i] == s[1..][i - 1];
      r
  }

  /** `s` without its trailing run of `p`-characters (`replace(/p+$/, '')`). */
  function DropWhileEnd(s: string, p: char -> bool): (r: string)
    ensures |r| <= |s| && r == s[..|r|]
    ensures r != [] ==> !p(r[|r| - 1])
    ensures (s == [] || !p(s[|s| - 1])) ==> r == s
    ensures forall i :: |r| <= i < |s| ==> p(s[i])
  {
    if s == [] || !p(s[|s| - 1]) then s else DropWhileEnd(s[..|s| - 1], p)
  }

  /** `trim()`: whitespace removed from both ends. */
  function Trim(s: string): (r: string)
    ensures r != [] ==> !IsSpace(r[0]) && !IsSpace(r[|r| - 1])
    ensures exists lo :: 0 <= lo <= |s| && All(s[..lo], IsSpace) && |r| <= |s[lo..]| && s[lo..][..|r|] == r && All(s[lo..][|r|..], IsSpace)
  {
    var front := DropWhile(s, IsSpace);
    var r := DropWhileEnd(front, IsSpace);
    TrimSlices(s, front, r);
    r
  }

  /** What `trim()` keeps is a slice of its input with only whitespace on either side. */
  lemma TrimSlices(s: string, front: string, r: string)
    requires front == DropWhile(s, IsSpace) && r == DropWhileEnd(front, IsSpace)
    ensures exists lo :: 0 <= lo <= |s| && All(s[..lo], IsSpace) && |r| <= |s[lo..]| && s[lo..][..|r|] == r && All(s[lo..][|r|..], IsSpace)
  {
    var lo := |s| - |front|;
    assert s[lo..] == front;
    assert All(s[..lo], IsSpace);
    assert All(front[|r|..], IsSpace);
  }

  /** `replace(/p+/g, c)`: every maximal run of `p`-characters becomes the single character `c`. */
  function Squash(s: string, p: char -> bool, c: char): (r: string)
    ensures |r| <= |s|
    decreases |s|
  {
    if s == [] then []
    else if p(s[0]) then [c] + Squash(DropWhile(s, p), p, c)
    else [s[0]] + Squash(s[1..], p, c)
  }

  /** `replace(/[^q]+/g, '')`: only the characters satisfying `q` remain. */
  function Filter(s: string, q: char -> bool): (r: string)
    ensures All(r, q)
    ensures |r| <= |s|
    ensures forall x :: q(x) ==> Occurrences(r, x) == Occurrences(s, x)
    ensures IsSubsequence(r, s)
  {
    if s == [] then []
    else
      var rest := Filter(s[1..], q);
      assert s == [s[0]] + s[1..];
      assert multiset(s) == multiset{s[0]} + multiset(s[1..]);
      if q(s[0]) then
        assert ([s[0]] + rest)[1..] == rest;
        [s[0]] + rest
      else rest
  }

  // ---------------------------------------------------------------------------
  // Facts about the building blocks
  // ---------------------------------------------------------------------------

  lemma AllSuffix(s: string, q: char -> bool, n: nat)
    requires All(s, q) && n <= |s|
    ensures All(s[n..], q) && All(s[..n], q)
  {
  }

  /** Squashing keeps a class `q` of characters when the replacement is in `q`. */
  lemma {:induction false} SquashKeeps(s: string, p: char -> bool, c: char, q: char -> bool)
    requires All(s, q) && q(c)
    ensures All(Squash(s, p, c), q)
    decreases |s|
  {
    if s != [] {
      if p(s[0]) {
        var t := DropWhile(s, p);
        AllSuffix(s, q, |s| - |t|);
        SquashKeeps(t, p, c, q);
      } else {
        AllSuffix(s, q, 1);
        SquashKeeps(s[1..], p, c, q);
      }
    }
  }

  /** Squashing with a replacement outside the class removes the class entirely. */
  lemma {:induction false} SquashRemoves(s: string, p: char -> bool, c: char)
    requires !p(c)
    ensures All(Squash(s, p, c), (x: char) => !p(x))
    decreases |s|
  {
    if s != [] {
      if p(s[0]) {
        SquashRemoves(DropWhile(s, p), p, c);
      } else {
        SquashRemoves(s[1..], p, c);
      }
    }
  }

  /** A text that starts outside the class keeps its first character when squashed. */
  lemma SquashHead(s: string, p: char -> bool, c: char)
    requires s != [] && !p(s[0])
    ensures Squash(s, p, c) != [] && Squash(s, p, c)[0] == s[0]
  {
  }

  /** Squashing with a replacement inside the class leaves no two class characters side by side. */
  lemma {:induction false} SquashNoAdjacent(s: string, p: char -> bool, c: char)
    requires p(c)
    ensures NoAdjacent(Squash(s, p, c), p)
    decreases |s|
  {
    if s != [] {
      var r := Squash(s, p, c);
      if p(s[0]) {
        var t := DropWhile(s, p);
        var rest := Squash(t, p, c);
        SquashNoAdjacent(t, p, c);
        if t != [] {
          SquashHead(t, p, c);
        }
        assert r == [c] + rest;
        forall i | 0 <= i < |r| - 1 ensures !(p(r[i]) && p(r[i + 1])) {
          if i > 0 {
            assert r[i] == rest[i - 1] && r[i + 1] == rest[i];
          }
        }
      } else {
        var rest := Squash(s[1..], p, c);
        SquashNoAdjacent(s[1..], p, c);
        assert r == [s[0]] + rest;
        forall i | 0 <= i < |r| - 1 ensures !(p(r[i]) && p(r[i + 1])) {
          if i > 0 {
            assert r[i] == rest[i - 1] && r[i + 1] == rest[i];
          }
        }
      }
    }
  }

  /** Squashing a string in which class characters are already isolated copies of `c` changes nothing. */
  lemma {:induction false} SquashIsolated(s: string, p: char -> bool, c: char)
    requires NoAdjacent(s, p)
    requires forall i :: 0 <= i < |s| && p(s[i]) ==> s[i] == c
    ensures Squash(s, p, c) == s
    decreases |s|
  {
    if s != [] {
      var t := s[1..];
      assert NoAdjacent(t, p) by {
        forall i | 0 <= i < |t| - 1 ensures !(p(t[i]) && p(t[i + 1])) {
          assert t[i] == s[i + 1] && t[i + 1] == s[i + 2];
        }
      }
      assert forall i :: 0 <= i < |t| && p(t[i]) ==> t[i] == c by {
        forall i | 0 <= i < |t| && p(t[i]) ensures t[i] == c {
          assert t[i] == s[i + 1];
        }
      }
      SquashIsolated(t, p, c);
      if p(s[0]) {
        assert t == [] || !p(t[0]);
        assert DropWhile(s, p) == DropWhile(t, p);
      }
      assert s == [s[0]] + t;
    }
  }

  /** Squashing a string without class characters changes nothing. */
  lemma {:induction false} SquashNone(s: string, p: char -> bool, c: char)
    requires All(s, (x: char) => !p(x))
    ensures Squash(s, p, c) == s
    decreases |s|
  {
    if s != [] {
      AllSuffix(s, (x: char) => !p(x), 1);
      SquashNone(s[1..], p, c);
      assert s == [s[0]] + s[1..];
    }
  }

  /** Filtering distributes over concatenation. */
  lemma {:induction false} FilterAppend(a: string, b: string, q: char -> bool)
    ensures Filter(a + b, q) == Filter(a, q) + Filter(b, q)
  {
    if a == [] {
      assert a + b == b;
    } else {
      assert (a + b)[0] == a[0] && (a + b)[1..] == a[1..] + b;
      FilterAppend(a[1..], b, q);
    }
  }

  /** Dropping a leading run of `p`-characters keeps every `q`-character, when no `q`-character is in `p`. */
  lemma {:induction false} FilterDropWhile(s: string, p: char -> bool, q: char -> bool)
    requires forall x :: q(x) ==> !p(x)
    ensures Filter(DropWhile(s, p), q) == Filter(s, q)
  {
    if s != [] && p(s[0]) {
      FilterDropWhile(s[1..], p, q);
    }
  }

  /** Dropping a trailing run of `p`-characters keeps every `q`-character, when no `q`-character is in `p`. */
  lemma {:induction false} FilterDropWhileEnd(s: string, p: char -> bool, q: char -> bool)
    requires forall x :: q(x) ==> !p(x)
    ensures Filter(DropWhileEnd(s, p), q) == Filter(s, q)
    decreases |s|
  {
    if s != [] && p(s[|s| - 1]) {
      var init := s[..|s| - 1];
      var last := [s[|s| - 1]];
      FilterDropWhileEnd(init, p, q);
      assert s == init + last;
      FilterAppend(init, last, q);
      assert last[1..] == [];
    }
  }

  /** Trimming removes whitespace only: every character outside the whitespace class survives, in order. */
  lemma FilterTrim(s: string, q: char -> bool)
    requires forall x :: q(x) ==> !IsSpace(x)
    ensures Filter(Trim(s), q) == Filter(s, q)
  {
    FilterDropWhile(s, IsSpace, q);
    FilterDropWhileEnd(DropWhile(s, IsSpace), IsSpace, q);
  }

  /**
    Squashing runs of `p` into `c` keeps, in order and with multiplicity,
    every character that is neither in `p` nor equal to `c`.
   */
  lemma {:induction false} SquashKeepsOthers(s: string, p: char -> bool, c: char, q: char -> bool)
    requires forall x :: q(x) ==> !p(x)
    requires !q(c)
    ensures Filter(Squash(s, p, c), q) == Filter(s, q)
    decreases |s|
  {
    if s != [] {
      if p(s[0]) {
        var t := DropWhile(s, p);
        SquashKeepsOthers(t, p, c, q);
        FilterAppend([c], Squash(t, p, c), q);
        assert [c][1..] == [];
        FilterDropWhile(s, p, q);
      } else {
        SquashKeepsOthers(s[1..], p, c, q);
        FilterAppend([s[0]], Squash(s[1..], p, c), q);
        assert [s[0]][1..] == [];
        assert s == [s[0]] + s[1..];
        FilterAppend([s[0]], s[1..], q);
      }
    }
  }

  /** Filtering by a wider class first changes nothing about a later, narrower filter. */
  lemma {:induction false} FilterFilter(s: string, q: char -> bool, wide: char -> bool)
    requires forall x :: q(x) ==> wide(x)
    ensures Filter(Filter(s, wide), q) == Filter(s, q)
  {
    if s != [] {
      FilterFilter(s[1..], q, wide);
      if wide(s[0]) {
        var rest := Filter(s[1..], wide);
        assert ([s[0]] + rest)[1..] == rest;
      }
    }
  }

  /** Filtering keeps any class its input was in. */
  lemma {:induction false} FilterKeeps(s: string, q: char -> bool, k: char -> bool)
    requires All(s, k)
    ensures All(Filter(s, q), k)
  {
    if s != [] {
      AllSuffix(s, k, 1);
      FilterKeeps(s[1..], q, k);
    }
  }

  /** Filtering a string whose characters all pass changes nothing. */
  lemma {:induction false} FilterAll(s: string, q: char -> bool)
    requires All(s, q)
    ensures Filter(s, q) == s
  {
    if s != [] {
      AllSuffix(s, q, 1);
      FilterAll(s[1..], q);
      assert s == [s[0]] + s[1..];
    }
  }

  /** Lower-casing leaves no upper-case letter. */
  lemma LowerHasNoUpper(s: string)
    ensures All(Lower(s), (c: char) => !IsUpper(c))
  {
  }

  // ---------------------------------------------------------------------------
  // slugify
  // ---------------------------------------------------------------------------

  /** What a slug looks like: `[a-z0-9_-]*`, no `--`, no dash at either end. */
  predicate IsSlug(s: string) {
    && All(s, IsSlugChar)
    && NoAdjacent(s, IsDash)
    && (s != [] ==> !IsDash(s[0]) && !IsDash(s[|s| - 1]))
  }

  /** The stages of `slugify` before the leading and trailing dashes are stripped. */
  function SlugCore(text: string): (core: string) {
    var lowered := Lower(text);
    var trimmed := Trim(lowered);
    var dashed := Squash(trimmed, IsSpace, '-');
    var kept := Filter(dashed, IsWordOrDash);
    Squash(kept, IsDash, '-')
  }

  /**
    `slugify`: lower-case, trim, turn whitespace runs into '-', drop every
    character outside `[\w-]`, collapse dash runs, strip dashes at both ends.
    (Replacing `--+` by '-' is the same as replacing every dash run by '-'.)
   */
  function Slugify(text: string): (slug: string)
    requires IsAscii(text)
    ensures IsSlug(slug)
  {
    var core := SlugCore(text);
    SlugCoreShape(text);
    var stripped := DropWhileEnd(DropWhile(core, IsDash), IsDash);
    StripKeepsShape(core);
    stripped
  }

  /** After collapsing, only slug characters remain and no two dashes touch. */
  lemma SlugCoreShape(text: string)
    ensures All(SlugCore(text), IsSlugChar)
    ensures NoAdjacent(SlugCore(text), IsDash)
  {
    var noUpper := (c: char) => !IsUpper(c);
    var lowered := Lower(text);
    LowerHasNoUpper(text);
    var t0 := DropWhile(lowered, IsSpace);
    AllSuffix(lowered, noUpper, |lowered| - |t0|);
    var trimmed := Trim(lowered);
    AllSuffix(t0, noUpper, |trimmed|);
    var dashed := Squash(trimmed, IsSpace, '-');
    SquashKeeps(trimmed, IsSpace, '-', noUpper);
    var kept := Filter(dashed, IsWordOrDash);
    FilterKeeps(dashed, IsWordOrDash, noUpper);
    assert All(kept, IsSlugChar);
    SquashKeeps(kept, IsDash, '-', IsSlugChar);
    SquashNoAdjacent(kept, IsDash, '-');
  }

  /** A piece of a string keeps its characters' class and its lack of touching class characters. */
  lemma SliceKeepsShape(s: string, lo: nat, hi: nat, q: char -> bool, p: char -> bool)
    requires lo <= hi <= |s|
    requires All(s, q) && NoAdjacent(s, p)
    ensures All(s[lo..hi], q) && NoAdjacent(s[lo..hi], p)
  {
    var t := s[lo..hi];
    forall i | 0 <= i < |t| - 1 ensures !(p(t[i]) && p(t[i + 1])) {
      assert t[i] == s[lo + i] && t[i + 1] == s[lo + i + 1];
    }
  }

  /** Stripping dashes at both ends of a string of slug characters without `--` yields a slug. */
  lemma StripKeepsShape(core: string)
    requires All(core, IsSlugChar) && NoAdjacent(core, IsDash)
    ensures IsSlug(DropWhileEnd(DropWhile(core, IsDash), IsDash))
  {
    var f := DropWhile(core, IsDash);
    SliceKeepsShape(core, |core| - |f|, |core|, IsSlugChar, IsDash);
    var g := DropWhileEnd(f, IsDash);
    SliceKeepsShape(f, 0, |g|, IsSlugChar, IsDash);
    if g != [] {
      assert g[0] == f[0];
    }
  }

  /**
    `slugify` keeps every word character of the lower-cased text, in order and
    with multiplicity: only whitespace, dashes and other non-word characters
    are dropped or replaced.
   */
  lemma SlugifyKeepsWords(text: string)
    requires IsAscii(text)
    ensures Filter(Slugify(text), IsWord) == Filter(Lower(text), IsWord)
  {
    var lowered := Lower(text);
    var trimmed := Trim(lowered);
    var dashed := Squash(trimmed, IsSpace, '-');
    var kept := Filter(dashed, IsWordOrDash);
    var core := Squash(kept, IsDash, '-');
    assert core == SlugCore(text);
    FilterTrim(lowered, IsWord);
    SquashKeepsOthers(trimmed, IsSpace, '-', IsWord);
    FilterFilter(dashed, IsWord, IsWordOrDash);
    SquashKeepsOthers(kept, IsDash, '-', IsWord);
    FilterDropWhile(core, IsDash, IsWord);
    FilterDropWhileEnd(DropWhile(core, IsDash), IsDash, IsWord);
  }

  /** `slugify` leaves a slug as it is. */
  lemma SlugifyFixesSlugs(s: string)
    requires IsSlug(s)
    ensures IsAscii(s)
    ensures Slugify(s) == s
  {
    SlugCoreFixesSlugs(s);
    StripFixesSlugs(s);
  }

  /** A slug neither starts nor ends with a dash, so stripping dashes keeps it. */
  lemma StripFixesSlugs(s: string)
    requires IsSlug(s)
    ensures DropWhileEnd(DropWhile(s, IsDash), IsDash) == s
  {
    assert DropWhile(s, IsDash) == s;
  }

  /** Every stage before the dash stripping leaves a slug as it is. */
  lemma SlugCoreFixesSlugs(s: string)
    requires IsSlug(s)
    ensures IsAscii(s)
    ensures SlugCore(s) == s
  {
    SlugChars(s);
    TrimFixesSlugs(s);
    SquashNone(s, IsSpace, '-');
    FilterAll(s, IsWordOrDash);
    SquashIsolated(s, IsDash, '-');
  }

  /** A slug is ASCII, already lower-case, and holds only word characters and dashes, none of them whitespace. */
  lemma SlugChars(s: string)
    requires IsSlug(s)
    ensures IsAscii(s) && Lower(s) == s
    ensures All(s, (x: char) => !IsSpace(x)) && All(s, IsWordOrDash)
  {
    forall i | 0 <= i < |s| ensures !IsSpace(s[i]) && IsWordOrDash(s[i]) {
      assert IsSlugChar(s[i]);
    }
    assert IsAscii(s);
    assert Lower(s) == s;
  }

  /** A slug has no whitespace at either end, so trimming keeps it. */
  lemma TrimFixesSlugs(s: string)
    requires IsSlug(s)
    ensures Trim(s) == s
  {
    if s != [] {
      assert IsSlugChar(s[0]) && IsSlugChar(s[|s| - 1]);
    }
    TrimNoEdgeSpace(s);
  }

  /** Trimming a text that neither starts nor ends with whitespace changes nothing. */
  lemma TrimNoEdgeSpace(s: string)
    requires s != [] ==> !IsSpace(s[0]) && !IsSpace(s[|s| - 1])
    ensures Trim(s) == s
  {
    var front := DropWhile(s, IsSpace);
    assert front == s;
    assert DropWhileEnd(front, IsSpace) == s;
  }

  /** `slugify` is idempotent. */
  lemma SlugifyIdempotent(text: string)
    requires IsAscii(text)
    ensures IsAscii(Slugify(text)) && Slugify(Slugify(text)) == Slugify(text)
  {
    SlugifyFixesSlugs(Slugify(text));
  }

  // ---------------------------------------------------------------------------
  // capitalize
  // ---------------------------------------------------------------------------

  /** `charAt(0).toUpperCase() + slice(1).toLowerCase()` on ASCII text. */
  function Capitalize(s: string): (r: string)
    requires IsAscii(s)
    ensures |r| == |s|
    ensures s != [] ==> !IsLower(r[0]) && (IsUpper(r[0]) <==> IsUpper(s[0]) || IsLower(s[0]))
    ensures forall i :: 1 <= i < |r| ==> !IsUpper(r[i]) && ToLowerChar(r[i]) == ToLowerChar(s[i])
    ensures s != [] ==> ToLowerChar(r[0]) == ToLowerChar(s[0])
  {
    if s == [] then [] else [ToUpperChar(s[0])] + Lower(s[1..])
  }

  /** Capitalizing twice is capitalizing once, and the input's case does not matter. */
  lemma CapitalizeIdempotent(s: string)
    requires IsAscii(s)
    ensures IsAscii(Capitalize(s)) && Capitalize(Capitalize(s)) == Capitalize(s)
    ensures IsAscii(Lower(s)) && Capitalize(Lower(s)) == Capitalize(s)
  {
    var c := Capitalize(s);
    if s != [] {
      assert c[1..] == Lower(s[1..]);
      assert Lower(c[1..]) == c[1..];
      assert Lower(s)[1..] == Lower(s[1..]);
    }
  }

  // ---------------------------------------------------------------------------
  // truncate
  // ---------------------------------------------------------------------------

  /** `substring(0, n)` clamps a negative end to 0. */
  function ClampEnd(n: int): (m: nat) {
    if n < 0 then 0 else n
  }

  /**
    `str.length > length ? str.substring(0, length) + '...' : str` on ASCII
    text, where a character is one UTF-16 code unit.
   */
  function Truncate(s: string, length: int): (r: string)
    requires IsAscii(s)
    ensures IsAscii(r)
    ensures |s| <= length ==> r == s
    ensures |s| > length ==>
      && |r| == ClampEnd(length) + 3
      && r[..ClampEnd(length)] == s[..ClampEnd(length)]
      && r[ClampEnd(length)..] == "..."
  {
    if |s| > length then s[..ClampEnd(length)] + "..." else s
  }

  /** Truncating an already truncated string to the same length changes nothing. */
  lemma TruncateIdempotent(s: string, length: int)
    requires IsAscii(s)
    ensures IsAscii(Truncate(s, length))
    ensures Truncate(Truncate(s, length), length) == Truncate(s, length)
  {
    var t := Truncate(s, length);
    if |s| > length {
      var n := ClampEnd(length);
      assert |t| > length;
      assert t[..n] == s[..n];
      assert Truncate(t, length) == t[..n] + "...";
      assert t == t[..n] + t[n..];
    }
  }

  // ---------------------------------------------------------------------------
  // isValidObjectId
  // ---------------------------------------------------------------------------

  predicate IsHexDigit(c: char) {
    IsDigit(c) || 'a' <= c <= 'f' || 'A' <= c <= 'F'
  }

  /** Every character is a hexadecimal digit. */
  function AllHex(s: string): (ok: bool)
    ensures ok <==> forall i :: 0 <= i < |s| ==> IsHexDigit(s[i])
  {
    if s == [] then true else IsHexDigit(s[0]) && AllHex(s[1..])
  }

  /** `/^[0-9a-fA-F]{24}$/.test(id)`. */
  function IsValidObjectId(id: string): (ok: bool)
    ensures ok <==> |id| == 24 && forall i :: 0 <= i < |id| ==> IsHexDigit(id[i])
  {
    |id| == 24 && AllHex(id)
  }

  type Byte = b: int | 0 <= b < 256

  /** The lower-case hexadecimal digit of `d`. */
  function HexChar(d: int): (c: char)
    requires 0 <= d < 16
    ensures IsHexDigit(c) && !IsUpper(c)
  {
    if d < 10 then ('0' as int + d) as char else ('a' as int + d - 10) as char
  }

  /** The value of a hexadecimal digit, in either case. */
  function HexValue(c: char): (d: int)
    requires IsHexDigit(c)
    ensures 0 <= d < 16
  {
    if IsDigit(c) then c as int - '0' as int
    else if 'a' <= c <= 'f' then c as int - 'a' as int + 10
    else c as int - 'A' as int + 10
  }

  /** Two lower-case hexadecimal digits per byte, high digit first: how an ObjectId is spelled. */
  function HexOf(bytes: seq<Byte>): (s: string)
    ensures |s| == 2 * |bytes|
    ensures forall i :: 0 <= i < |s| ==> IsHexDigit(s[i])
  {
    if bytes == [] then [] else [HexChar(bytes[0] / 16), HexChar(bytes[0] % 16)] + HexOf(bytes[1..])
  }

  /** The bytes a string of hexadecimal digits spells, two digits per byte. */
  function BytesOf(s: string): (bytes: seq<Byte>)
    requires |s| % 2 == 0 && forall i :: 0 <= i < |s| ==> IsHexDigit(s[i])
    ensures |bytes| == |s| / 2
  {
    if s == [] then [] else [HexValue(s[0]) * 16 + HexValue(s[1]) as Byte] + BytesOf(s[2..])
  }

  /** Every 12-byte ObjectId spells a valid id, and the id reads back as the same bytes. */
  lemma ObjectIdRoundTrip(bytes: seq<Byte>)
    requires |bytes| == 12
    ensures IsValidObjectId(HexOf(bytes))
    ensures BytesOf(HexOf(bytes)) == bytes
  {
    HexRoundTrip(bytes);
  }

  lemma {:induction false} HexRoundTrip(bytes: seq<Byte>)
    ensures BytesOf(HexOf(bytes)) == bytes
  {
    if bytes != [] {
      var b := bytes[0];
      var s := HexOf(bytes);
      assert s[2..] == HexOf(bytes[1..]);
      assert HexValue(HexChar(b / 16)) == b / 16;
      assert HexValue(HexChar(b % 16)) == b % 16;
      HexRoundTrip(bytes[1..]);
    }
  }

  /** Every valid id is the spelling, up to letter case, of the 12 bytes it reads as. */
  lemma ValidObjectIdIsHexOfBytes(id: string)
    requires IsValidObjectId(id)
    ensures |BytesOf(id)| == 12
    ensures HexOf(BytesOf(id)) == Lower(id)
  {
    HexOfBytesOf(id);
  }

  lemma {:induction false} HexOfBytesOf(s: string)
    requires |s| % 2 == 0 && forall i :: 0 <= i < |s| ==> IsHexDigit(s[i])
    ensures HexOf(BytesOf(s)) == Lower(s)
  {
    if s != [] {
      var hi := HexValue(s[0]);
      var lo := HexValue(s[1]);
      ByteDigits(hi, lo);
      HexCharOfValue(s[0]);
      HexCharOfValue(s[1]);
      HexOfBytesOf(s[2..]);
      assert Lower(s) == [ToLowerChar(s[0]), ToLowerChar(s[1])] + Lower(s[2..]);
    }
  }

  /** A byte's two hexadecimal digits are its high and low nibble. */
  lemma ByteDigits(hi: int, lo: int)
    requires 0 <= hi < 16 && 0 <= lo < 16
    ensures (hi * 16 + lo) / 16 == hi && (hi * 16 + lo) % 16 == lo
  {
  }

  /** Reading a hexadecimal digit and spelling its value again gives the digit in lower case. */
  lemma HexCharOfValue(c: char)
    requires IsHexDigit(c)
    ensures HexChar(HexValue(c)) == ToLowerChar(c)
  {
  }

  // ---------------------------------------------------------------------------
  // removeEmpty, pick, omit
  // ---------------------------------------------------------------------------

  /** A JavaScript value as far as these helpers distinguish values. */
  datatype Value = Null | Undefined | Str(s: string) | Num(n: int) | Bool(b: bool) | Other(ref: nat)

  /** `v != null && v !== ''`: loose inequality with null also excludes undefined. */
  predicate NonEmpty(v: Value) {
    v != Null && v != Undefined && v != Str("")
  }

  /** The `reduce` of `removeEmpty` over the keys still to visit, with the accumulator built so far. */
  function RemoveEmptyFrom(obj: map<string, Value>, keys: seq<string>, acc: map<string, Value>): (r: map<string, Value>)
    requires forall i :: 0 <= i < |keys| ==> keys[i] in obj
    ensures forall k :: k in r <==> k in acc || (k in keys && NonEmpty(obj[k]))
    ensures forall k :: k in r ==> r[k] == if k in keys && NonEmpty(obj[k]) then obj[k] else acc[k]
  {
    if keys == [] then acc
    else
      var k := keys[0];
      RemoveEmptyFrom(obj, keys[1..], if NonEmpty(obj[k]) then acc[k := obj[k]] else acc)
  }

  /**
    `removeEmpty(obj)`, where `keys` is `Object.keys(obj)`: exactly the entries
    whose value is neither null, undefined nor the empty string, unchanged.
   */
  function RemoveEmpty(obj: map<string, Value>, keys: seq<string>): (r: map<string, Value>)
    requires Elems(keys) == obj.Keys
    ensures forall k :: k in r <==> k in obj && NonEmpty(obj[k])
    ensures forall k :: k in r ==> r[k] == obj[k]
  {
    RemoveEmptyFrom(obj, keys, map[])
  }

  /** Removing empty entries twice removes nothing more. */
  lemma RemoveEmptyIdempotent(obj: map<string, Value>, keys: seq<string>, keys2: seq<string>)
    requires Elems(keys) == obj.Keys
    requires Elems(keys2) == RemoveEmpty(obj, keys).Keys
    ensures RemoveEmpty(RemoveEmpty(obj, keys), keys2) == RemoveEmpty(obj, keys)
  {
  }

  /** The `reduce` of `pick`: each requested key present in the object is copied. */
  function PickFrom(obj: map<string, Value>, keys: seq<string>, acc: map<string, Value>): (r: map<string, Value>)
    ensures forall k :: k in r <==> k in acc || (k in keys && k in obj)
    ensures forall k :: k in r ==> r[k] == if k in keys && k in obj then obj[k] else acc[k]
  {
    if keys == [] then acc
    else
      var k := keys[0];
      PickFrom(obj, keys[1..], if k in obj then acc[k := obj[k]] else acc)
  }

  /** `pick(obj, keys)`: exactly the requested keys the object has, with the object's values. */
  function Pick(obj: map<string, Value>, keys: seq<string>): (r: map<string, Value>)
    ensures forall k :: k in r <==> k in keys && k in obj
    ensures forall k :: k in r ==> r[k] == obj[k]
  {
    PickFrom(obj, keys, map[])
  }

  /** The `forEach(delete)` of `omit` over a copy of the object. */
  function OmitFrom(copy: map<string, Value>, keys: seq<string>): (r: map<string, Value>)
    ensures forall k :: k in r <==> k in copy && k !in keys
    ensures forall k :: k in r ==> r[k] == copy[k]
  {
    if keys == [] then copy else OmitFrom(copy - {keys[0]}, keys[1..])
  }

  /** `omit(obj, keys)`: the object without the listed keys, every other entry unchanged. */
  function Omit(obj: map<string, Value>, keys: seq<string>): (r: map<string, Value>)
    ensures forall k :: k in r <==> k in obj && k !in keys
    ensures forall k :: k in r ==> r[k] == obj[k]
  {
    OmitFrom(obj, keys)
  }

  /** `pick` and `omit` with the same keys split an object into two disjoint halves that make it up again. */
  lemma PickOmitPartition(obj: map<string, Value>, keys: seq<string>)
    ensures Pick(obj, keys).Keys !! Omit(obj, keys).Keys
    ensures Pick(obj, keys) + Omit(obj, keys) == obj
  {
  }
}

=== FILE: inventory.dfy ===
/**
  The three document collections the reconciliation handlers read and write
  (assets, purchases, asset requests), the errors they answer with, and the
  two asset-collection updates they share: MongoDB's `$inc` of `quantity`
  and the `$inc` + `$pull` that allocates unit ids.

  Record shapes follow src/types/index.ts; timestamps, monetary fields and
  vendor enrichment are not part of this model.
 */
module Inventory {
  import opened Wrappers
  import opened Seqs

  /** An asset type (IAsset): `quantity` is the aggregate counter, `assetIds` the unit-id pool. */
  datatype Asset = Asset(
    name: string,
    category: string,
    subcategory: string,
    brand: Option<string>,
    quantity: int,
    unit: string,
    description: Option<string>,
    assetIds: seq<string>,
    assignedToEmail: Option<string>
  )

  /** The status enum of an asset request. */
  datatype RequestStatus = Pending | Approved | Rejected

  /**
    An asset request (IAssetRequest). `category`, `subcategory` and `unit` are
    optional here because the create-and-approve handler builds a request
    without them.
   */
  datatype AssetRequest = AssetRequest(
    userEmail: string,
    productId: string,
    productName: string,
    category: Option<string>,
    subcategory: Option<string>,
    quantity: int,
    unit: Option<string>,
    status: RequestStatus,
    approvedBy: Option<string>,
    approvedByName: Option<string>,
    approvedAt: Option<int>,
    rejectReason: Option<string>,
    message: Option<string>,
    productIds: seq<string>
  )

  /** A purchase line item (IPurchaseItem); an absent `assetIds` array is the empty sequence. */
  datatype PurchaseItem = PurchaseItem(
    productId: string,
    productName: Option<string>,
    assetName: Option<string>,
    qty: int,
    assetIds: seq<string>
  )

  /** A purchase (IPurchase) without its monetary totals and vendor contact fields. */
  datatype Purchase = Purchase(
    vendorId: Option<string>,
    invoiceNo: string,
    items: seq<PurchaseItem>,
    createdBy: string,
    updatedBy: Option<string>
  )

  /** The whole database as the handlers see it: three collections keyed by document id. */
  datatype State = State(
    assets: map<string, Asset>,
    purchases: map<string, Purchase>,
    requests: map<string, AssetRequest>
  )

  /**
    What a handler throws: `NotFoundError(resource)`, `AppError(message, status)`,
    or a schema validation failure on `save()` listing the offending paths.
   */
  datatype Error =
    | NotFound(resource: string)
    | AppError(message: string, statusCode: int)
    | ValidationFailed(paths: seq<string>)

  datatype Response = Ok | Err(error: Error)

  /** The database after a handler ran, and how the handler answered. */
  datatype Outcome = Outcome(after: State, response: Response)

  /** JavaScript truthiness of an optional string: present and not "". */
  predicate Truthy(s: Option<string>) {
    s.Some? && s.value != ""
  }

  /** `s || fallback` for a string fallback. */
  function Or(s: Option<string>, fallback: string): (r: string)
    ensures Truthy(s) ==> r == s.value
    ensures !Truthy(s) ==> r == fallback
  {
    if Truthy(s) then s.value else fallback
  }

  /** `a || b` where `b` may itself be undefined. */
  function OrElse(a: Option<string>, b: Option<string>): (r: Option<string>) {
    if Truthy(a) then a else b
  }

  /** A `findByIdAndUpdate` field assignment: an undefined value is stripped and leaves the field as it was. */
  function SetIfDefined(current: Option<string>, v: Option<string>): (r: Option<string>) {
    if v.Some? then v else current
  }

  /**
    `Asset.findByIdAndUpdate(id, { $inc: { quantity: delta } })`: no upsert, so a
    missing asset is left missing; no validators run, so the result may be negative.
   */
  function IncQuantity(assets: map<string, Asset>, id: string, delta: int): (r: map<string, Asset>)
    ensures r.Keys == assets.Keys
    ensures id in assets ==> r[id] == assets[id].(quantity := assets[id].quantity + delta)
    ensures forall k :: k in assets && k != id ==> r[k] == assets[k]
  {
    if id in assets then assets[id := assets[id].(quantity := assets[id].quantity + delta)] else assets
  }

  /**
    `Asset.findByIdAndUpdate(id, { $inc: { quantity: -n }, $pull: { assetIds: { $in: ids } } })`:
    the counter drops by `n` and every occurrence of every listed id leaves the pool.
   */
  function Allocate(assets: map<string, Asset>, id: string, n: int, ids: seq<string>): (r: map<string, Asset>)
    ensures r.Keys == assets.Keys
    ensures id in assets ==> r[id] == assets[id].(quantity := assets[id].quantity - n, assetIds := Keep(assets[id].assetIds, Elems(ids)))
    ensures forall k :: k in assets && k != id ==> r[k] == assets[k]
  {
    if id in assets then
      assets[id := assets[id].(quantity := assets[id].quantity - n, assetIds := Keep(assets[id].assetIds, Elems(ids)))]
    else assets
  }

  /** The counter agrees with the pool: the invariant the ledger is meant to keep. */
  predicate CounterMatchesPool(a: Asset) {
    a.quantity == |a.assetIds|
  }

  /**
    Pulling `ids` out of a pool that holds each of them exactly once, while
    lowering the counter by `|ids|`, keeps the counter equal to the pool size.
   */
  lemma AllocateKeepsCounter(assets: map<string, Asset>, id: string, ids: seq<string>)
    requires id in assets && CounterMatchesPool(assets[id])
    requires NoDuplicates(ids)
    requires forall i :: 0 <= i < |ids| ==> Occurrences(assets[id].assetIds, ids[i]) == 1
    ensures CounterMatchesPool(Allocate(assets, id, |ids|, ids)[id])
    ensures |Allocate(assets, id, |ids|, ids)[id].assetIds| == |assets[id].assetIds| - |ids|
  {
    KeepLength(assets[id].assetIds, Elems(ids));
    CountInDistinct(assets[id].assetIds, ids);
  }
}

=== FILE: purchases.dfy ===
/**
  The purchase handlers of src/routes/purchase.routes.ts that touch stock:
  create (quantity intake), update (write-once unit ids, quantity re-delta),
  delete (quantity reversal), and the purchased-ids listing for one product.
 */
module Purchases {
  import opened Wrappers
  import opened Seqs
  import opened Inventory

  /** The item bounds the request schema enforces: a product id and a quantity of at least 1. */
  predicate ValidItem(item: PurchaseItem) {
    item.productId != "" && item.qty >= 1
  }

  /** An item moves stock on update and delete only when `productId && qty` is truthy. */
  predicate Counted(item: PurchaseItem) {
    item.productId != "" && item.qty != 0
  }

  /** The quantity one item carries for product `pid`: its `qty` if it is counted and for `pid`, else 0. */
  function ItemQty(item: PurchaseItem, pid: string): (q: int) {
    if Counted(item) && item.productId == pid then item.qty else 0
  }

  /** The total quantity the counted items carry for product `pid`. */
  function QtyFor(items: seq<PurchaseItem>, pid: string): (total: int) {
    if items == [] then 0 else ItemQty(items[0], pid) + QtyFor(items[1..], pid)
  }

  /** Whether a quantity is applied (`$inc: qty`) or reverted (`$inc: -qty`). */
  datatype Direction = Apply | Revert

  function Signed(dir: Direction, q: int): (d: int) {
    if dir == Apply then q else -q
  }

  /** The `$inc` one item issues, if it is counted. */
  function Step(assets: map<string, Asset>, item: PurchaseItem, dir: Direction): (r: map<string, Asset>)
    ensures r.Keys == assets.Keys
    ensures forall k :: k in assets ==>
      r[k] == assets[k].(quantity := assets[k].quantity + Signed(dir, ItemQty(item, k)))
  {
    if Counted(item) then IncQuantity(assets, item.productId, Signed(dir, item.qty)) else assets
  }

  /**
    The sequence of `$inc` updates that update and delete issue, one per
    counted item, in item order.
   */
  function Shift(assets: map<string, Asset>, items: seq<PurchaseItem>, dir: Direction): (r: map<string, Asset>)
    ensures r.Keys == assets.Keys
    ensures forall k :: k in assets ==>
      r[k] == assets[k].(quantity := assets[k].quantity + Signed(dir, QtyFor(items, k)))
  {
    if items == [] then assets else Shift(Step(assets, items[0], dir), items[1..], dir)
  }

  /** Renaming items (setting `assetName`) does not change what they carry. */
  lemma {:induction false} QtyForIgnoresNames(items: seq<PurchaseItem>, named: seq<PurchaseItem>, pid: string)
    requires |named| == |items|
    requires forall i :: 0 <= i < |items| ==> named[i] == items[i].(assetName := named[i].assetName)
    ensures QtyFor(named, pid) == QtyFor(items, pid)
  {
    if items != [] {
      QtyForIgnoresNames(items[1..], named[1..], pid);
    }
  }

  // ---------------------------------------------------------------------------
  // POST /purchases
  // ---------------------------------------------------------------------------

  /** `asset?.name || 'Unknown'`. */
  function AssetNameOr(assets: map<string, Asset>, pid: string): (name: string) {
    if pid in assets && assets[pid].name != "" then assets[pid].name else "Unknown"
  }

  /** The index of the first item whose id count differs from its quantity, or `|items|`. */
  function FirstMismatch(items: seq<PurchaseItem>): (i: nat)
    ensures i <= |items|
    ensures forall j :: 0 <= j < i ==> |items[j].assetIds| == items[j].qty
    ensures i < |items| ==> |items[i].assetIds| != items[i].qty
  {
    if items == [] then 0
    else if |items[0].assetIds| != items[0].qty then 0
    else 1 + FirstMismatch(items[1..])
  }

  /** How many items the intake loop gets through: up to and including the first bad one. */
  function Processed(items: seq<PurchaseItem>): (n: nat)
    ensures n <= |items|
  {
    if FirstMismatch(items) < |items| then FirstMismatch(items) + 1 else |items|
  }

  /** Where the intake loop stopped: the asset collection it left, the named items, and whether it threw. */
  datatype Intake = Intake(assets: map<string, Asset>, stored: seq<PurchaseItem>, failed: bool)

  /**
    The intake loop: for each item, look up the asset name, increment the
    product's counter, and only then check that the item carries `qty` ids,
    throwing at the first that does not. Increments already issued stay.
    A valid item is always counted, so its increment is exactly one `Step`.
   */
  function IntakeItems(assets: map<string, Asset>, items: seq<PurchaseItem>): (r: Intake)
    requires forall i :: 0 <= i < |items| ==> ValidItem(items[i])
    ensures r.failed <==> exists i :: 0 <= i < |items| && |items[i].assetIds| != items[i].qty
    ensures r.assets == Shift(assets, items[..Processed(items)], Apply)
    ensures !r.failed ==>
      && |r.stored| == |items|
      && forall i :: 0 <= i < |items| ==>
           r.stored[i] == items[i].(assetName := Some(AssetNameOr(assets, items[i].productId)))
  {
    if items == [] then Intake(assets, [], false)
    else
      var it := items[0];
      var named := it.(assetName := Some(AssetNameOr(assets, it.productId)));
      var bumped := Step(assets, it, Apply);
      ProcessedHead(items);
      if |it.assetIds| != it.qty then
        Intake(bumped, [], true)
      else
        var rest := IntakeItems(bumped, items[1..]);
        NamesSurviveStep(assets, it);
        Intake(rest.assets, [named] + rest.stored, rest.failed)
  }

  /** The processed prefix starts with the first item and continues with the processed prefix of the rest. */
  lemma ProcessedHead(items: seq<PurchaseItem>)
    requires items != []
    ensures var done := items[..Processed(items)];
      && done != [] && done[0] == items[0]
      && (|items[0].assetIds| != items[0].qty ==> done[1..] == [])
      && (|items[0].assetIds| == items[0].qty ==> done[1..] == items[1..][..Processed(items[1..])])
  {
  }

  /** An intake step changes only counters, so the asset names it reads stay the same. */
  lemma NamesSurviveStep(assets: map<string, Asset>, it: PurchaseItem)
    ensures forall p :: AssetNameOr(Step(assets, it, Apply), p) == AssetNameOr(assets, p)
  {
  }

  /** The counters after the intake loop, product by product. */
  lemma IntakeCounters(assets: map<string, Asset>, items: seq<PurchaseItem>)
    requires forall i :: 0 <= i < |items| ==> ValidItem(items[i])
    ensures var after := IntakeItems(assets, items).assets;
      && after.Keys == assets.Keys
      && forall k :: k in assets ==>
           after[k] == assets[k].(quantity := assets[k].quantity + QtyFor(items[..Processed(items)], k))
  {
    var done := items[..Processed(items)];
    assert IntakeItems(assets, items).assets == Shift(assets, done, Apply);
  }

  /** When every item's id count matches, the intake loop runs through all of them. */
  lemma AllProcessed(items: seq<PurchaseItem>)
    requires forall i :: 0 <= i < |items| ==> |items[i].assetIds| == items[i].qty
    ensures Processed(items) == |items| && items[..Processed(items)] == items
  {
  }

  const CountMismatch := AppError("Asset ID count must match quantity", 400)

  /**
    An item the purchase schema accepts on `save()`: a product id, a quantity
    of at least 1, and no unit id that fails `required` (the empty string).
   */
  predicate ItemComplete(item: PurchaseItem) {
    item.productId != "" && item.qty >= 1 && "" !in item.assetIds
  }

  /** The item paths `save()` reports, per item, in item order. */
  function ItemsMissingRequired(items: seq<PurchaseItem>): (paths: seq<string>)
    ensures paths == [] <==> forall i :: 0 <= i < |items| ==> ItemComplete(items[i])
    ensures forall x :: x in paths ==> x in ["items.productId", "items.qty", "items.assetIds"]
    ensures (exists i :: 0 <= i < |items| && "" in items[i].assetIds) <==> "items.assetIds" in paths
  {
    if items == [] then []
    else
      var it := items[0];
      var here := (if it.productId == "" then ["items.productId"] else [])
        + (if it.qty < 1 then ["items.qty"] else [])
        + (if "" in it.assetIds then ["items.assetIds"] else []);
      var rest := ItemsMissingRequired(items[1..]);
      assert forall i :: 1 <= i < |items| ==> items[i] == items[1..][i - 1];
      here + rest
  }

  /**
    The paths `Purchase.save()` reports as failing the schema's required
    fields, in schema order: `invoiceNo`, the items, `createdBy`. Monetary
    fields are not part of this model.
   */
  function PurchaseMissingRequired(p: Purchase): (paths: seq<string>)
    ensures paths == [] <==>
      p.invoiceNo != "" && p.createdBy != "" && forall i :: 0 <= i < |p.items| ==> ItemComplete(p.items[i])
    ensures ("invoiceNo" in paths <==> p.invoiceNo == "") && ("createdBy" in paths <==> p.createdBy == "")
    ensures (exists i :: 0 <= i < |p.items| && "" in p.items[i].assetIds) <==> "items.assetIds" in paths
  {
    var items := ItemsMissingRequired(p.items);
    assert "invoiceNo" !in items && "createdBy" !in items;
    (if p.invoiceNo == "" then ["invoiceNo"] else []) + items + (if p.createdBy == "" then ["createdBy"] else [])
  }

  /** The purchase's unit ids all match their quantities. */
  predicate CountsMatch(items: seq<PurchaseItem>) {
    forall i :: 0 <= i < |items| ==> |items[i].assetIds| == items[i].qty
  }

  /**
    Create a purchase under the fresh id `newId`. Every processed item raises its
    product's counter by its quantity; no unit id ever enters an asset's pool.
    On a count mismatch the handler throws after the increments of that item
    and all earlier ones. Otherwise `save()` validates the document and throws
    when a required field is empty, after every increment was issued. Nothing
    is saved on either failure.
   */
  function CreatePurchase(st: State, newId: string, p: Purchase): (o: Outcome)
    requires newId !in st.purchases
    requires forall i :: 0 <= i < |p.items| ==> ValidItem(p.items[i])
    ensures o.response.Ok? <==> CountsMatch(p.items) && PurchaseMissingRequired(p) == []
    ensures !CountsMatch(p.items) ==> o.response == Err(CountMismatch)
    ensures CountsMatch(p.items) && PurchaseMissingRequired(p) != [] ==>
      o.response == Err(ValidationFailed(PurchaseMissingRequired(p)))
    ensures o.response.Err? ==> o.after.purchases == st.purchases
    ensures o.after.requests == st.requests
    ensures o.after.assets.Keys == st.assets.Keys
    ensures forall k :: k in st.assets ==>
      o.after.assets[k] == st.assets[k].(quantity := st.assets[k].quantity + QtyFor(p.items[..Processed(p.items)], k))
    ensures o.response.Ok? ==>
      && Processed(p.items) == |p.items|
      && o.after.purchases.Keys == st.purchases.Keys + {newId}
      && (forall k :: k in st.purchases ==> o.after.purchases[k] == st.purchases[k])
      && o.after.purchases[newId] == p.(items := o.after.purchases[newId].items)
      && |o.after.purchases[newId].items| == |p.items|
      && forall i :: 0 <= i < |p.items| ==>
           o.after.purchases[newId].items[i] == p.items[i].(assetName := Some(AssetNameOr(st.assets, p.items[i].productId)))
  {
    var r := IntakeItems(st.assets, p.items);
    IntakeCounters(st.assets, p.items);
    if r.failed then Outcome(st.(assets := r.assets), Err(CountMismatch))
    else
      AllProcessed(p.items);
      var missing := PurchaseMissingRequired(p);
      if missing != [] then Outcome(st.(assets := r.assets), Err(ValidationFailed(missing)))
      else
        SaveNamed(st.purchases, newId, p, r.stored, st.assets);
        Outcome(st.(assets := r.assets, purchases := st.purchases[newId := p.(items := r.stored)]), Ok)
  }

  /**
    A purchase whose counts match but which carries an empty unit id is
    refused by `save()`, and every item's increment stays applied: the
    counters rise by the whole purchase while nothing is stored.
   */
  lemma CreateSaveFailureKeepsIncrements(st: State, newId: string, p: Purchase, i: nat)
    requires newId !in st.purchases
    requires forall j :: 0 <= j < |p.items| ==> ValidItem(p.items[j])
    requires CountsMatch(p.items)
    requires i < |p.items| && "" in p.items[i].assetIds
    ensures var o := CreatePurchase(st, newId, p);
      && o.response.Err? && o.response.error.ValidationFailed?
      && "items.assetIds" in o.response.error.paths
      && o.after.purchases == st.purchases
      && forall k :: k in st.assets ==> o.after.assets[k].quantity == st.assets[k].quantity + QtyFor(p.items, k)
  {
    AllProcessed(p.items);
  }

  /** Saving the purchase with its named items adds exactly that document and keeps every other. */
  lemma SaveNamed(purchases: map<string, Purchase>, newId: string, p: Purchase, stored: seq<PurchaseItem>,
                  assets: map<string, Asset>)
    requires newId !in purchases
    requires |stored| == |p.items|
    requires forall i :: 0 <= i < |p.items| ==>
      stored[i] == p.items[i].(assetName := Some(AssetNameOr(assets, p.items[i].productId)))
    ensures var saved := purchases[newId := p.(items := stored)];
      && saved.Keys == purchases.Keys + {newId}
      && (forall k :: k in purchases ==> saved[k] == purchases[k])
      && saved[newId] == p.(items := saved[newId].items)
      && |saved[newId].items| == |p.items|
      && forall i :: 0 <= i < |p.items| ==>
           saved[newId].items[i] == p.items[i].(assetName := Some(AssetNameOr(assets, p.items[i].productId)))
  {
  }

  // ---------------------------------------------------------------------------
  // PATCH /purchases/:id
  // ---------------------------------------------------------------------------

  /** The validated body of a purchase update; absent fields are left as stored. */
  datatype PurchasePatch = PurchasePatch(
    vendorId: Option<string>,
    invoiceNo: Option<string>,
    items: Option<seq<PurchaseItem>>,
    updatedBy: string
  )

  /** The stored ids of item `i`, or `[]` when the stored purchase has no such item. */
  function StoredIdsAt(items: seq<PurchaseItem>, i: nat): (ids: seq<string>) {
    if i < |items| then items[i].assetIds else []
  }

  /** Write-once unit ids: every new item carries exactly the ids stored at its index. */
  predicate AssetIdsUnchanged(stored: seq<PurchaseItem>, incoming: seq<PurchaseItem>) {
    forall i :: 0 <= i < |incoming| ==> incoming[i].assetIds == StoredIdsAt(stored, i)
  }

  /** The stored purchase with the patch's defined fields written over it. */
  function Patched(p: Purchase, patch: PurchasePatch): (patched: Purchase) {
    p.(vendorId := SetIfDefined(p.vendorId, patch.vendorId),
       invoiceNo := patch.invoiceNo.GetOr(p.invoiceNo),
       items := patch.items.GetOr(p.items),
       updatedBy := Some(patch.updatedBy))
  }

  const IdsFrozen := AppError("Asset IDs cannot be modified after purchase", 403)

  /**
    Update a purchase. With new items, the unit ids are checked first (403 on
    any difference, nothing written); then every stored item's quantity is
    reverted and every new item's quantity applied, so each product's counter
    moves by its new total minus its old total. Unit-id pools are not touched.
   */
  function UpdatePurchase(st: State, id: string, patch: PurchasePatch): (o: Outcome)
    ensures id !in st.purchases ==> o == Outcome(st, Err(NotFound("Purchase")))
    ensures (id in st.purchases && patch.items.Some?
      && !AssetIdsUnchanged(st.purchases[id].items, patch.items.value)) ==> o == Outcome(st, Err(IdsFrozen))
    ensures o.response.Ok? <==>
      id in st.purchases && (patch.items.None? || AssetIdsUnchanged(st.purchases[id].items, patch.items.value))
    ensures o.response.Err? ==> o.after == st
    ensures o.response.Ok? ==>
      && o.after.requests == st.requests
      && o.after.purchases == st.purchases[id := Patched(st.purchases[id], patch)]
      && o.after.assets.Keys == st.assets.Keys
      && forall k :: k in st.assets ==>
           o.after.assets[k] == st.assets[k].(quantity := st.assets[k].quantity
             + (if patch.items.Some? then QtyFor(patch.items.value, k) - QtyFor(st.purchases[id].items, k) else 0))
  {
    if id !in st.purchases then Outcome(st, Err(NotFound("Purchase")))
    else
      var stored := st.purchases[id];
      match patch.items
      case None => Outcome(st.(purchases := st.purchases[id := Patched(stored, patch)]), Ok)
      case Some(incoming) =>
        if !AssetIdsUnchanged(stored.items, incoming) then Outcome(st, Err(IdsFrozen))
        else
          var reverted := Shift(st.assets, stored.items, Revert);
          Outcome(st.(assets := Shift(reverted, incoming, Apply),
                      purchases := st.purchases[id := Patched(stored, patch)]), Ok)
  }

  /** Resubmitting the stored items unchanged passes the write-once check and leaves every counter as it was. */
  lemma ResubmitKeepsStock(st: State, id: string, patch: PurchasePatch)
    requires id in st.purchases && patch.items == Some(st.purchases[id].items)
    ensures UpdatePurchase(st, id, patch).response.Ok?
    ensures UpdatePurchase(st, id, patch).after.assets == st.assets
  {
    var after := UpdatePurchase(st, id, patch).after.assets;
    forall k | k in st.assets ensures after[k] == st.assets[k] {
    }
  }

  // ---------------------------------------------------------------------------
  // DELETE /purchases/:id
  // ---------------------------------------------------------------------------

  /**
    Delete a purchase: every counted item's quantity is taken off its product's
    counter (no lower bound, no pool change), then the purchase is removed.
   */
  function DeletePurchase(st: State, id: string): (o: Outcome)
    ensures id !in st.purchases ==> o == Outcome(st, Err(NotFound("Purchase")))
    ensures id in st.purchases ==>
      && o.response.Ok?
      && o.after.requests == st.requests
      && o.after.purchases == st.purchases - {id}
      && o.after.assets.Keys == st.assets.Keys
      && forall k :: k in st.assets ==>
           o.after.assets[k] == st.assets[k].(quantity := st.assets[k].quantity - QtyFor(st.purchases[id].items, k))
  {
    if id !in st.purchases then Outcome(st, Err(NotFound("Purchase")))
    else Outcome(st.(assets := Shift(st.assets, st.purchases[id].items, Revert), purchases := st.purchases - {id}), Ok)
  }

  /** Creating a purchase and then deleting it restores the whole database. */
  lemma CreateThenDeleteRestores(st: State, newId: string, p: Purchase)
    requires newId !in st.purchases
    requires forall i :: 0 <= i < |p.items| ==> ValidItem(p.items[i])
    requires CreatePurchase(st, newId, p).response.Ok?
    ensures DeletePurchase(CreatePurchase(st, newId, p).after, newId) == Outcome(st, Ok)
  {
    CreatedStock(st, newId, p);
    DeleteUndoesIntake(st, CreatePurchase(st, newId, p).after, newId);
  }

  /** Deleting a purchase whose quantities are exactly what was added since `st` gives back `st`. */
  lemma DeleteUndoesIntake(st: State, mid: State, newId: string)
    requires newId in mid.purchases && mid.purchases - {newId} == st.purchases
    requires mid.requests == st.requests
    requires mid.assets.Keys == st.assets.Keys
    requires forall k :: k in st.assets ==>
      mid.assets[k] == st.assets[k].(quantity := st.assets[k].quantity + QtyFor(mid.purchases[newId].items, k))
    ensures DeletePurchase(mid, newId) == Outcome(st, Ok)
  {
    var fin := DeletePurchase(mid, newId).after;
    RevertUndoesApply(st.assets, mid.assets, fin.assets, mid.purchases[newId].items);
  }

  /** A successful create adds to each counter exactly what the stored purchase carries for it. */
  lemma CreatedStock(st: State, newId: string, p: Purchase)
    requires newId !in st.purchases
    requires forall i :: 0 <= i < |p.items| ==> ValidItem(p.items[i])
    requires CreatePurchase(st, newId, p).response.Ok?
    ensures var mid := CreatePurchase(st, newId, p).after;
      && newId in mid.purchases
      && mid.requests == st.requests
      && mid.purchases - {newId} == st.purchases
      && mid.assets.Keys == st.assets.Keys
      && forall k :: k in st.assets ==>
           mid.assets[k] == st.assets[k].(quantity := st.assets[k].quantity + QtyFor(mid.purchases[newId].items, k))
  {
    var mid := CreatePurchase(st, newId, p).after;
    AllProcessed(p.items);
    forall k | k in st.assets ensures QtyFor(mid.purchases[newId].items, k) == QtyFor(p.items, k) {
      QtyForIgnoresNames(p.items, mid.purchases[newId].items, k);
    }
    assert mid.purchases - {newId} == st.purchases;
  }

  /** Taking off what was added, product by product, gives back the original collection. */
  lemma RevertUndoesApply(before: map<string, Asset>, mid: map<string, Asset>, fin: map<string, Asset>,
                          items: seq<PurchaseItem>)
    requires mid.Keys == before.Keys && fin.Keys == before.Keys
    requires forall k :: k in before ==> mid[k] == before[k].(quantity := before[k].quantity + QtyFor(items, k))
    requires forall k :: k in before ==> fin[k] == mid[k].(quantity := mid[k].quantity - QtyFor(items, k))
    ensures fin == before
  {
    forall k | k in before ensures fin[k] == before[k] {
      assert mid[k].quantity == before[k].quantity + QtyFor(items, k);
    }
  }

  // ---------------------------------------------------------------------------
  // GET /purchases/asset-ids/:productId
  // ---------------------------------------------------------------------------

  /** The ids of the items for product `pid`, concatenated in item order. */
  function ItemIds(items: seq<PurchaseItem>, pid: string): (r: seq<string>)
    ensures forall x :: x in r ==> exists i :: 0 <= i < |items| && items[i].productId == pid && x in items[i].assetIds
  {
    if items == [] then []
    else
      var rest := ItemIds(items[1..], pid);
      assert forall i :: 1 <= i < |items| ==> items[i] == items[1..][i - 1];
      (if items[0].productId == pid then items[0].assetIds else []) + rest
  }

  /**
    The purchased-ids listing over the purchases the query returns, in the
    order returned: each purchase's matching items' ids, concatenated. (The
    query's `items.productId` filter only drops purchases that would
    contribute nothing.)
   */
  function PurchasedIds(found: seq<Purchase>, pid: string): (r: seq<string>)
    ensures forall x :: x in r <==> exists j :: 0 <= j < |found| && x in ItemIds(found[j].items, pid)
  {
    if found == [] then []
    else
      var rest := PurchasedIds(found[1..], pid);
      assert forall j :: 1 <= j < |found| ==> found[j] == found[1..][j - 1];
      ItemIds(found[0].items, pid) + rest
  }

  /** The listing of two batches of purchases is the listing of the first followed by that of the second. */
  lemma {:induction false} PurchasedIdsAppend(a: seq<Purchase>, b: seq<Purchase>, pid: string)
    ensures PurchasedIds(a + b, pid) == PurchasedIds(a, pid) + PurchasedIds(b, pid)
  {
    if a == [] {
      assert a + b == b;
    } else {
      var c := a + b;
      assert c[0] == a[0] && c[1..] == a[1..] + b;
      var head := ItemIds(a[0].items, pid);
      PurchasedIdsAppend(a[1..], b, pid);
      assert PurchasedIds(c, pid) == head + PurchasedIds(c[1..], pid);
      assert PurchasedIds(a, pid) == head + PurchasedIds(a[1..], pid);
    }
  }

  /** An id is listed exactly when some item for `pid` carries it. */
  lemma {:induction false} ItemIdsMember(items: seq<PurchaseItem>, pid: string, x: string)
    ensures x in ItemIds(items, pid) <==>
      exists i :: 0 <= i < |items| && items[i].productId == pid && x in items[i].assetIds
  {
    if items != [] {
      ItemIdsMember(items[1..], pid, x);
      if x in ItemIds(items[1..], pid) {
        var i :| 0 <= i < |items[1..]| && items[1..][i].productId == pid && x in items[1..][i].assetIds;
        assert items[i + 1] == items[1..][i];
      }
      if exists i :: 0 <= i < |items| && items[i].productId == pid && x in items[i].assetIds {
        var i :| 0 <= i < |items| && items[i].productId == pid && x in items[i].assetIds;
        if i > 0 {
          assert items[1..][i - 1] == items[i];
        }
      }
    }
  }

  /** An id is listed exactly when some item for `pid` of some returned purchase carries it. */
  lemma {:induction false} PurchasedIdsMember(found: seq<Purchase>, pid: string, x: string)
    ensures x in PurchasedIds(found, pid) <==>
      exists j, i :: 0 <= j < |found| && 0 <= i < |found[j].items|
        && found[j].items[i].productId == pid && x in found[j].items[i].assetIds
  {
    if found != [] {
      PurchasedIdsMember(found[1..], pid, x);
      ItemIdsMember(found[0].items, pid, x);
      if x in PurchasedIds(found[1..], pid) {
        var j, i :| 0 <= j < |found[1..]| && 0 <= i < |found[1..][j].items|
          && found[1..][j].items[i].productId == pid && x in found[1..][j].items[i].assetIds;
        assert found[j + 1] == found[1..][j];
      }
      if (exists j, i ::
            0 <= j < |found| && 0 <= i < |found[j].items| && found[j].items[i].productId == pid && x in found[j].items[i].assetIds) {
        var j, i :| 0 <= j < |found| && 0 <= i < |found[j].items|
          && found[j].items[i].productId == pid && x in found[j].items[i].assetIds;
        if j > 0 {
          assert found[1..][j - 1] == found[j];
        }
      }
    }
  }

  /** A purchase with no item for `pid` adds nothing to that product's listing. */
  lemma {:induction false} OtherProductsContributeNothing(items: seq<PurchaseItem>, pid: string)
    requires forall i :: 0 <= i < |items| ==> items[i].productId != pid
    ensures ItemIds(items, pid) == []
  {
    if items != [] {
      OtherProductsContributeNothing(items[1..], pid);
    }
  }

  /** Whether some item of `p` is for product `pid`: the `items.productId` filter of the query. */
  predicate HasItemFor(p: Purchase, pid: string) {
    exists i :: 0 <= i < |p.items| && p.items[i].productId == pid
  }

  /**
    `order` is an order in which the query `{ 'items.productId': pid }` can
    return the stored purchases: every stored purchase with an item for
    `pid` exactly once, and nothing else. MongoDB promises no particular
    order without a sort, so the listing is determined up to this choice.
   */
  predicate ListsFor(order: seq<string>, purchases: map<string, Purchase>, pid: string) {
    && NoDuplicates(order)
    && (forall i :: 0 <= i < |order| ==> order[i] in purchases && HasItemFor(purchases[order[i]], pid))
    && (forall id :: id in purchases && HasItemFor(purchases[id], pid) ==> id in order)
  }

  /** The purchase documents named by `order`, in that order. */
  function Found(purchases: map<string, Purchase>, order: seq<string>): (found: seq<Purchase>)
    requires forall i :: 0 <= i < |order| ==> order[i] in purchases
    ensures |found| == |order|
    ensures forall i :: 0 <= i < |order| ==> found[i] == purchases[order[i]]
  {
    seq(|order|, i requires 0 <= i < |order| => purchases[order[i]])
  }

  /** The listing over a non-empty order starts with its first purchase's ids. */
  lemma FoundCons(purchases: map<string, Purchase>, order: seq<string>, pid: string)
    requires order != []
    requires forall i :: 0 <= i < |order| ==> order[i] in purchases
    ensures PurchasedIds(Found(purchases, order), pid)
      == ItemIds(purchases[order[0]].items, pid) + PurchasedIds(Found(purchases, order[1..]), pid)
  {
    var f := Found(purchases, order);
    assert f[1..] == Found(purchases, order[1..]);
  }

  /** Taking one purchase out of a duplicate-free order takes exactly its ids out of the listing. */
  lemma {:induction false} RemoveListed(purchases: map<string, Purchase>, order: seq<string>, id: string, pid: string)
    requires NoDuplicates(order) && id in order
    requires forall i :: 0 <= i < |order| ==> order[i] in purchases
    ensures forall i :: 0 <= i < |Keep(order, {id})| ==> Keep(order, {id})[i] in purchases
    ensures multiset(PurchasedIds(Found(purchases, order), pid))
      == multiset(ItemIds(purchases[id].items, pid)) + multiset(PurchasedIds(Found(purchases, Keep(order, {id})), pid))
  {
    var kept := Keep(order, {id});
    assert forall i :: 0 <= i < |kept| ==> kept[i] in order;
    NoDuplicatesTail(order);
    FoundCons(purchases, order, pid);
    if order[0] == id {
      KeepNothing(order[1..], {id});
    } else {
      RemoveListed(purchases, order[1..], id, pid);
      assert kept == [order[0]] + Keep(order[1..], {id});
      FoundCons(purchases, kept, pid);
      assert kept[1..] == Keep(order[1..], {id});
    }
  }

  /** Two duplicate-free orders of the same purchases list the same ids, as multisets. */
  lemma {:induction false} SameListing(purchases: map<string, Purchase>, o1: seq<string>, o2: seq<string>, pid: string)
    requires NoDuplicates(o1) && NoDuplicates(o2)
    requires forall i :: 0 <= i < |o1| ==> o1[i] in purchases
    requires forall i :: 0 <= i < |o2| ==> o2[i] in purchases
    requires forall x :: x in o1 <==> x in o2
    ensures multiset(PurchasedIds(Found(purchases, o1), pid)) == multiset(PurchasedIds(Found(purchases, o2), pid))
    decreases |o1|
  {
    if o1 == [] {
      assert Elems(o2) == Elems(o1);
      DistinctSize(o2);
    } else {
      var a := o1[0];
      var rest := Keep(o2, {a});
      NoDuplicatesTail(o1);
      RemoveListed(purchases, o2, a, pid);
      KeepNoDuplicates(o2, {a});
      assert o1 == [a] + o1[1..];
      assert forall x :: x in o1[1..] <==> x in rest;
      SameListing(purchases, o1[1..], rest, pid);
      FoundCons(purchases, o1, pid);
    }
  }

  /** A stored purchase gains an item for `pid` exactly when the submitted one has one. */
  lemma CreatedHasItemFor(st: State, newId: string, p: Purchase, pid: string)
    requires newId !in st.purchases
    requires forall i :: 0 <= i < |p.items| ==> ValidItem(p.items[i])
    requires CreatePurchase(st, newId, p).response.Ok?
    ensures HasItemFor(CreatePurchase(st, newId, p).after.purchases[newId], pid) <==> HasItemFor(p, pid)
    ensures ItemIds(CreatePurchase(st, newId, p).after.purchases[newId].items, pid) == ItemIds(p.items, pid)
  {
    var created := CreatePurchase(st, newId, p).after.purchases[newId];
    if HasItemFor(p, pid) {
      var i :| 0 <= i < |p.items| && p.items[i].productId == pid;
      assert created.items[i].productId == pid;
    }
    if HasItemFor(created, pid) {
      var i :| 0 <= i < |created.items| && created.items[i].productId == pid;
      assert p.items[i].productId == pid;
    }
    ItemIdsIgnoresNames(p.items, created.items, pid);
  }

  /** Storing one more purchase appends it to the listing order when it has an item for `pid`. */
  lemma InsertListsFor(before: map<string, Purchase>, newId: string, created: Purchase, order: seq<string>, pid: string)
    requires newId !in before
    requires ListsFor(order, before, pid)
    ensures ListsFor(if HasItemFor(created, pid) then order + [newId] else order, before[newId := created], pid)
  {
    if HasItemFor(created, pid) {
      var order' := order + [newId];
      forall i, j | 0 <= i < j < |order'| ensures order'[i] != order'[j] {
        if j == |order| {
          assert order'[i] == order[i] && order[i] in before;
        }
      }
    }
  }

  /** ... and the listing grows by exactly the stored purchase's ids for `pid`. */
  lemma InsertListed(before: map<string, Purchase>, newId: string, created: Purchase, order: seq<string>, pid: string)
    requires newId !in before
    requires ListsFor(order, before, pid)
    ensures var order' := if HasItemFor(created, pid) then order + [newId] else order;
      && ListsFor(order', before[newId := created], pid)
      && PurchasedIds(Found(before[newId := created], order'), pid)
         == PurchasedIds(Found(before, order), pid) + ItemIds(created.items, pid)
  {
    InsertListsFor(before, newId, created, order, pid);
    var after := before[newId := created];
    assert Found(after, order) == Found(before, order);
    if HasItemFor(created, pid) {
      assert Found(after, order + [newId]) == Found(after, order) + [created];
      PurchasedIdsAppend(Found(after, order), [created], pid);
      assert PurchasedIds([created], pid) == ItemIds(created.items, pid) + PurchasedIds([], pid);
    } else {
      OtherProductsContributeNothing(created.items, pid);
      assert PurchasedIds(Found(before, order), pid) + ItemIds(created.items, pid) == PurchasedIds(Found(before, order), pid);
    }
  }

  /** Removing one stored purchase drops it from the listing order. */
  lemma EraseListsFor(before: map<string, Purchase>, id: string, order: seq<string>, pid: string)
    requires id in before
    requires ListsFor(order, before, pid)
    ensures ListsFor(Keep(order, {id}), before - {id}, pid)
  {
    var kept := Keep(order, {id});
    KeepNoDuplicates(order, {id});
    assert forall i :: 0 <= i < |kept| ==> kept[i] in kept;
  }

  /** ... and its ids for `pid` from the listing. */
  lemma EraseListed(before: map<string, Purchase>, id: string, order: seq<string>, pid: string)
    requires id in before
    requires ListsFor(order, before, pid)
    ensures ListsFor(Keep(order, {id}), before - {id}, pid)
    ensures multiset(PurchasedIds(Found(before, order), pid))
      == multiset(PurchasedIds(Found(before - {id}, Keep(order, {id})), pid)) + multiset(ItemIds(before[id].items, pid))
  {
    EraseListsFor(before, id, order, pid);
    var kept := Keep(order, {id});
    assert Found(before, kept) == Found(before - {id}, kept);
    if HasItemFor(before[id], pid) {
      RemoveListed(before, order, id, pid);
    } else {
      KeepNothing(order, {id});
      OtherProductsContributeNothing(before[id].items, pid);
    }
  }

  /**
    Creating a purchase keeps the listing a listing of the stored purchases:
    the earlier order followed by the new purchase when it has an item for
    `pid`, and the earlier order otherwise. The listing grows by exactly the
    new purchase's ids for `pid`, in item order, and whatever order the query
    returns the purchases in, the listed ids are the same multiset.
   */
  lemma CreateExtendsListing(st: State, newId: string, p: Purchase, order: seq<string>, pid: string)
    requires newId !in st.purchases
    requires forall i :: 0 <= i < |p.items| ==> ValidItem(p.items[i])
    requires CreatePurchase(st, newId, p).response.Ok?
    requires ListsFor(order, st.purchases, pid)
    ensures var after := CreatePurchase(st, newId, p).after.purchases;
      var order' := if HasItemFor(p, pid) then order + [newId] else order;
      && ListsFor(order', after, pid)
      && PurchasedIds(Found(after, order'), pid) == PurchasedIds(Found(st.purchases, order), pid) + ItemIds(p.items, pid)
    ensures forall k :: k in st.assets ==> CreatePurchase(st, newId, p).after.assets[k].assetIds == st.assets[k].assetIds
    ensures forall other: seq<string> :: ListsFor(other, CreatePurchase(st, newId, p).after.purchases, pid) ==>
      multiset(PurchasedIds(Found(CreatePurchase(st, newId, p).after.purchases, other), pid))
        == multiset(PurchasedIds(Found(st.purchases, order), pid)) + multiset(ItemIds(p.items, pid))
  {
    var after := CreatePurchase(st, newId, p).after.purchases;
    var created := after[newId];
    assert after == st.purchases[newId := created];
    CreatedHasItemFor(st, newId, p, pid);
    InsertListed(st.purchases, newId, created, order, pid);
    var order' := if HasItemFor(p, pid) then order + [newId] else order;
    forall other: seq<string> | ListsFor(other, after, pid)
      ensures multiset(PurchasedIds(Found(after, other), pid))
        == multiset(PurchasedIds(Found(st.purchases, order), pid)) + multiset(ItemIds(p.items, pid))
    {
      SameListing(after, other, order', pid);
    }
  }

  /**
    Deleting a purchase keeps the listing a listing of the stored purchases
    (the earlier order without the deleted id is one), and whatever order the
    query returns the remaining purchases in, the listing loses exactly the
    deleted purchase's ids for `pid`, as a multiset.
   */
  lemma DeleteShrinksListing(st: State, id: string, order: seq<string>, other: seq<string>, pid: string)
    requires id in st.purchases
    requires ListsFor(order, st.purchases, pid)
    requires ListsFor(other, DeletePurchase(st, id).after.purchases, pid)
    ensures ListsFor(Keep(order, {id}), DeletePurchase(st, id).after.purchases, pid)
    ensures multiset(PurchasedIds(Found(st.purchases, order), pid))
      == multiset(PurchasedIds(Found(DeletePurchase(st, id).after.purchases, other), pid))
         + multiset(ItemIds(st.purchases[id].items, pid))
  {
    var after := DeletePurchase(st, id).after.purchases;
    EraseListed(st.purchases, id, order, pid);
    SameListing(after, Keep(order, {id}), other, pid);
  }

  /** Renaming items does not change the ids they list. */
  lemma {:induction false} ItemIdsIgnoresNames(items: seq<PurchaseItem>, named: seq<PurchaseItem>, pid: string)
    requires |named| == |items|
    requires forall i :: 0 <= i < |items| ==> named[i] == items[i].(assetName := named[i].assetName)
    ensures ItemIds(named, pid) == ItemIds(items, pid)
  {
    if items != [] {
      ItemIdsIgnoresNames(items[1..], named[1..], pid);
    }
  }
}

=== FILE: requests.dfy ===
/**
  The asset-request handlers of src/routes/assetRequest.routes.ts that move
  stock: the legacy approve endpoint, the administrator's create-and-approve
  shortcut, and the status endpoint (approve with explicit unit ids, or reject).
  Each handler is one step over the whole database.
 */
module Requests {
  import opened Wrappers
  import opened Seqs
  import opened Inventory

  // ---------------------------------------------------------------------------
  // PATCH /approve/:id
  // ---------------------------------------------------------------------------

  /**
    Legacy approval: the request must exist and not already be approved, its
    asset must exist and hold at least the requested quantity. The request is
    marked approved and the asset's counter drops; the unit-id pool is not touched.
   */
  function LegacyApprove(st: State, id: string, approvedBy: string, now: int): (o: Outcome)
    ensures id !in st.requests ==> o == Outcome(st, Err(NotFound("Asset request")))
    ensures id in st.requests && st.requests[id].status == Approved ==>
      o == Outcome(st, Err(AppError("Request already approved", 400)))
    ensures id in st.requests && st.requests[id].status != Approved && st.requests[id].productId !in st.assets ==>
      o == Outcome(st, Err(NotFound("Asset")))
    ensures (id in st.requests && st.requests[id].status != Approved && st.requests[id].productId in st.assets
      && st.requests[id].quantity > st.assets[st.requests[id].productId].quantity) ==>
      o == Outcome(st, Err(AppError("Not enough stock for this asset", 400)))
    ensures o.response.Err? ==> o.after == st
    ensures o.response.Ok? <==>
      && id in st.requests
      && st.requests[id].status != Approved
      && st.requests[id].productId in st.assets
      && st.requests[id].quantity <= st.assets[st.requests[id].productId].quantity
    ensures o.response.Ok? ==>
      var r := st.requests[id];
      var a := st.assets[r.productId];
      && o.after.purchases == st.purchases
      && o.after.requests == st.requests[id := r.(status := Approved, approvedBy := Some(approvedBy), approvedAt := Some(now))]
      && o.after.assets.Keys == st.assets.Keys
      && o.after.assets[r.productId] == a.(quantity := a.quantity - r.quantity)
      && o.after.assets[r.productId].quantity >= 0
      && (forall k :: k in st.assets && k != r.productId ==> o.after.assets[k] == st.assets[k])
  {
    if id !in st.requests then Outcome(st, Err(NotFound("Asset request")))
    else
      var r := st.requests[id];
      if r.status == Approved then Outcome(st, Err(AppError("Request already approved", 400)))
      else if r.productId !in st.assets then Outcome(st, Err(NotFound("Asset")))
      else if r.quantity > st.assets[r.productId].quantity then
        Outcome(st, Err(AppError("Not enough stock for this asset", 400)))
      else
        var approved := r.(status := Approved, approvedBy := Some(approvedBy), approvedAt := Some(now));
        Outcome(st.(requests := st.requests[id := approved],
                    assets := IncQuantity(st.assets, r.productId, -r.quantity)), Ok)
  }

  /** A request approved through the legacy endpoint cannot be approved through it again. */
  lemma LegacyApproveOnce(st: State, id: string, by1: string, by2: string, t1: int, t2: int)
    requires LegacyApprove(st, id, by1, t1).response.Ok?
    ensures var mid := LegacyApprove(st, id, by1, t1).after;
      LegacyApprove(mid, id, by2, t2) == Outcome(mid, Err(AppError("Request already approved", 400)))
  {
  }

  /**
    The legacy endpoint lowers the counter without pulling any unit id, so an
    asset whose counter matched its pool no longer does once a nonzero quantity is approved.
   */
  lemma LegacyApproveDesyncsCounter(st: State, id: string, approvedBy: string, now: int)
    requires LegacyApprove(st, id, approvedBy, now).response.Ok?
    requires CounterMatchesPool(st.assets[st.requests[id].productId])
    requires st.requests[id].quantity != 0
    ensures !CounterMatchesPool(LegacyApprove(st, id, approvedBy, now).after.assets[st.requests[id].productId])
  {
  }

  // ---------------------------------------------------------------------------
  // POST /admin/create-and-approve
  // ---------------------------------------------------------------------------

  /** The validated body of a create-and-approve call. */
  datatype Assignment = Assignment(
    productId: string,
    productName: Option<string>,
    quantity: int,
    productIds: seq<string>,
    userEmail: string,
    approvedBy: string,
    message: Option<string>
  )

  /** The count and duplicate checks, run in that order before any write. */
  function AssignmentError(input: Assignment): (e: Option<Error>)
    ensures e.None? <==> |input.productIds| == input.quantity && NoDuplicates(input.productIds)
    ensures |input.productIds| != input.quantity ==> e == Some(AppError("Product IDs count mismatch", 400))
    ensures |input.productIds| == input.quantity && !NoDuplicates(input.productIds) ==>
      e == Some(AppError("Duplicate Product ID not allowed", 400))
  {
    DistinctSize(input.productIds);
    if |input.productIds| != input.quantity then Some(AppError("Product IDs count mismatch", 400))
    else if |Elems(input.productIds)| != |input.productIds| then Some(AppError("Duplicate Product ID not allowed", 400))
    else None
  }

  /**
    The request document the shortcut builds: approved at once, with the given
    unit ids and defaults for the product name and message. The body carries no
    category, subcategory or unit, so those are absent.
   */
  function AssignedRequest(input: Assignment, now: int): (doc: AssetRequest) {
    AssetRequest(
      userEmail := input.userEmail,
      productId := input.productId,
      productName := Or(input.productName, "Unnamed Asset"),
      category := None,
      subcategory := None,
      quantity := input.quantity,
      unit := None,
      status := Approved,
      approvedBy := Some(input.approvedBy),
      approvedByName := None,
      approvedAt := Some(now),
      rejectReason := None,
      message := Some(Or(input.message, "")),
      productIds := input.productIds)
  }

  /**
    Create-and-approve, with the request document stored as built. Only the
    count and duplicate checks can fail; there is no stock check, so the
    counter may go negative, and ids not in the pool are silently ignored by the pull.
   */
  function CreateAndApprove(st: State, newId: string, input: Assignment, now: int): (o: Outcome)
    requires newId !in st.requests
    ensures o.response.Ok? <==> |input.productIds| == input.quantity && NoDuplicates(input.productIds)
    ensures |input.productIds| != input.quantity ==> o.response == Err(AppError("Product IDs count mismatch", 400))
    ensures |input.productIds| == input.quantity && !NoDuplicates(input.productIds) ==>
      o.response == Err(AppError("Duplicate Product ID not allowed", 400))
    ensures o.response.Err? ==> o.after == st
    ensures o.response.Ok? ==>
      && o.after.purchases == st.purchases
      && o.after.requests.Keys == st.requests.Keys + {newId}
      && (forall k :: k in st.requests ==> o.after.requests[k] == st.requests[k])
      && o.after.requests[newId].status == Approved
      && o.after.requests[newId].productIds == input.productIds
      && o.after.requests[newId].quantity == input.quantity
      && o.after.requests[newId].productName == (if Truthy(input.productName) then input.productName.value else "Unnamed Asset")
      && o.after.requests[newId].message == Some(if Truthy(input.message) then input.message.value else "")
      && o.after.requests[newId].productId == input.productId
      && o.after.requests[newId].userEmail == input.userEmail
      && o.after.requests[newId].approvedBy == Some(input.approvedBy)
      && o.after.requests[newId].approvedAt == Some(now)
      && o.after.assets == Allocate(st.assets, input.productId, input.quantity, input.productIds)
  {
    match AssignmentError(input)
    case Some(e) => Outcome(st, Err(e))
    case None =>
      Outcome(st.(requests := st.requests[newId := AssignedRequest(input, now)],
                  assets := Allocate(st.assets, input.productId, input.quantity, input.productIds)), Ok)
  }

  /** With no stock check, assigning units of an asset whose counter is zero drives it negative. */
  lemma CreateAndApproveOverdraws(st: State, newId: string, input: Assignment, now: int)
    requires newId !in st.requests
    requires input.productId in st.assets && st.assets[input.productId].quantity == 0
    requires |input.productIds| == input.quantity >= 1 && NoDuplicates(input.productIds)
    ensures CreateAndApprove(st, newId, input, now).response.Ok?
    ensures CreateAndApprove(st, newId, input, now).after.assets[input.productId].quantity < 0
  {
  }

  /**
    When each assigned id sits exactly once in the asset's pool and the counter
    matched the pool, the shortcut keeps them matched.
   */
  lemma CreateAndApproveKeepsCounter(st: State, newId: string, input: Assignment, now: int)
    requires newId !in st.requests
    requires CreateAndApprove(st, newId, input, now).response.Ok?
    requires input.productId in st.assets && CounterMatchesPool(st.assets[input.productId])
    requires forall i :: 0 <= i < |input.productIds| ==> Occurrences(st.assets[input.productId].assetIds, input.productIds[i]) == 1
    ensures CounterMatchesPool(CreateAndApprove(st, newId, input, now).after.assets[input.productId])
  {
    AllocateKeepsCounter(st.assets, input.productId, input.productIds);
  }

  /**
    The paths `AssetRequest.save()` reports as failing the schema: the required
    fields, in schema order (an empty string fails `required`, a quantity below 1 fails `min`).
   */
  function MissingRequired(r: AssetRequest): (paths: seq<string>)
    ensures paths == [] <==>
      r.userEmail != "" && r.productId != "" && r.productName != "" && Truthy(r.category)
      && Truthy(r.subcategory) && r.quantity >= 1 && Truthy(r.unit)
  {
    (if r.userEmail == "" then ["userEmail"] else [])
    + (if r.productId == "" then ["productId"] else [])
    + (if r.productName == "" then ["productName"] else [])
    + (if !Truthy(r.category) then ["category"] else [])
    + (if !Truthy(r.subcategory) then ["subcategory"] else [])
    + (if r.quantity < 1 then ["quantity"] else [])
    + (if !Truthy(r.unit) then ["unit"] else [])
  }

  /**
    Create-and-approve as written: the document is saved before the asset is
    updated, and saving validates it against the schema, which requires the
    category, subcategory and unit the handler never sets.
   */
  function CreateAndApproveAsWritten(st: State, newId: string, input: Assignment, now: int): (o: Outcome)
    requires newId !in st.requests
    ensures o.response.Err? ==> o.after == st
    ensures AssignmentError(input).Some? ==> o.response == Err(AssignmentError(input).value)
  {
    match AssignmentError(input)
    case Some(e) => Outcome(st, Err(e))
    case None =>
      var doc := AssignedRequest(input, now);
      var missing := MissingRequired(doc);
      if missing != [] then Outcome(st, Err(ValidationFailed(missing)))
      else
        Outcome(st.(requests := st.requests[newId := doc],
                    assets := Allocate(st.assets, input.productId, input.quantity, input.productIds)), Ok)
  }

  /**
    As written, create-and-approve never commits: input that passes the count
    and duplicate checks is refused by schema validation, with the database unchanged.
   */
  lemma CreateAndApproveAsWrittenNeverCommits(st: State, newId: string, input: Assignment, now: int)
    requires newId !in st.requests
    requires |input.productIds| == input.quantity && NoDuplicates(input.productIds)
    ensures CreateAndApproveAsWritten(st, newId, input, now).after == st
    ensures CreateAndApproveAsWritten(st, newId, input, now).response.Err?
    ensures CreateAndApproveAsWritten(st, newId, input, now).response.error.ValidationFailed?
    ensures "category" in CreateAndApproveAsWritten(st, newId, input, now).response.error.paths
    ensures CreateAndApprove(st, newId, input, now).response.Ok?
  {
    var doc := AssignedRequest(input, now);
    assert !Truthy(doc.category);
    assert MissingRequired(doc) != [];
  }

  // ---------------------------------------------------------------------------
  // PATCH /status/:id
  // ---------------------------------------------------------------------------

  /** The validated body of a status update. */
  datatype StatusUpdate = StatusUpdate(
    status: string,
    approvedBy: Option<string>,
    approvedByName: Option<string>,
    reason: Option<string>,
    productId: Option<string>,
    productName: Option<string>,
    quantity: Option<int>,
    productIds: Option<seq<string>>,
    message: Option<string>
  )

  /** `quantity || request.quantity || productIds.length`, where 0 is falsy. */
  function EffectiveQuantity(bodyQuantity: Option<int>, stored: int, count: nat): (q: int)
    ensures bodyQuantity.Some? && bodyQuantity.value != 0 ==> q == bodyQuantity.value
    ensures (bodyQuantity.None? || bodyQuantity.value == 0) && stored != 0 ==> q == stored
    ensures (bodyQuantity.None? || bodyQuantity.value == 0) && stored == 0 ==> q == count
  {
    if bodyQuantity.Some? && bodyQuantity.value != 0 then bodyQuantity.value
    else if stored != 0 then stored
    else count
  }

  /** The checks of an approval, in order, run before any write. */
  function ApprovalError(r: AssetRequest, body: StatusUpdate): (e: Option<Error>)
    ensures e.None? <==>
      && Truthy(body.productId) && body.productIds.Some?
      && |body.productIds.value| == EffectiveQuantity(body.quantity, r.quantity, |body.productIds.value|)
      && NoDuplicates(body.productIds.value)
    ensures !Truthy(body.productId) || body.productIds.None? ==>
      e == Some(AppError("productId and productIds array are required for approval", 400))
    ensures (Truthy(body.productId) && body.productIds.Some?
      && |body.productIds.value| != EffectiveQuantity(body.quantity, r.quantity, |body.productIds.value|)) ==>
      e == Some(AppError("Product IDs count must match quantity", 400))
    ensures (Truthy(body.productId) && body.productIds.Some?
      && |body.productIds.value| == EffectiveQuantity(body.quantity, r.quantity, |body.productIds.value|)
      && !NoDuplicates(body.productIds.value)) ==>
      e == Some(AppError("Duplicate Product ID not allowed", 400))
  {
    if !Truthy(body.productId) || body.productIds.None? then
      Some(AppError("productId and productIds array are required for approval", 400))
    else
      var ids := body.productIds.value;
      DistinctSize(ids);
      if |ids| != EffectiveQuantity(body.quantity, r.quantity, |ids|) then
        Some(AppError("Product IDs count must match quantity", 400))
      else if |Elems(ids)| != |ids| then Some(AppError("Duplicate Product ID not allowed", 400))
      else None
  }

  /** The request as the approval overwrites it. */
  function ApprovedRequest(r: AssetRequest, body: StatusUpdate): (approved: AssetRequest)
    requires Truthy(body.productId) && body.productIds.Some?
  {
    var ids := body.productIds.value;
    r.(status := Approved,
       approvedBy := SetIfDefined(r.approvedBy, OrElse(body.approvedBy, body.approvedByName)),
       approvedByName := SetIfDefined(r.approvedByName, OrElse(body.approvedByName, body.approvedBy)),
       rejectReason := None,
       productId := body.productId.value,
       productName := Or(body.productName, r.productName),
       quantity := EffectiveQuantity(body.quantity, r.quantity, |ids|),
       productIds := ids,
       message := SetIfDefined(r.message, OrElse(body.message, r.message)))
  }

  /** The request as the rejection overwrites it. */
  function RejectedRequest(r: AssetRequest, reason: Option<string>): (rejected: AssetRequest) {
    r.(status := Rejected, rejectReason := Some(Or(reason, "No reason provided")))
  }

  const InvalidStatus := AppError("Invalid status. Must be \"approved\" or \"rejected\"", 400)

  /**
    The status endpoint. Approval needs a product id and an id array whose
    length matches the effective quantity and which has no duplicates; it then
    allocates those ids from the named asset (no stock check, no guard against
    an already approved request) and overwrites the request. Rejection touches
    only the request. Any other status is refused.
   */
  function UpdateStatus(st: State, id: string, body: StatusUpdate): (o: Outcome)
    ensures id !in st.requests ==> o == Outcome(st, Err(NotFound("Asset request")))
    ensures o.response.Err? ==> o.after == st
    ensures id in st.requests && body.status != "approved" && body.status != "rejected" ==>
      o == Outcome(st, Err(InvalidStatus))
    ensures id in st.requests && body.status == "approved" && ApprovalError(st.requests[id], body).Some? ==>
      o == Outcome(st, Err(ApprovalError(st.requests[id], body).value))
    ensures id in st.requests && body.status == "approved" ==>
      (o.response.Ok? <==>
        && Truthy(body.productId) && body.productIds.Some?
        && |body.productIds.value| == EffectiveQuantity(body.quantity, st.requests[id].quantity, |body.productIds.value|)
        && NoDuplicates(body.productIds.value))
    ensures id in st.requests && body.status == "approved" && o.response.Ok? ==>
      var ids := body.productIds.value;
      && o.after.purchases == st.purchases
      && o.after.assets == Allocate(st.assets, body.productId.value, |ids|, ids)
      && o.after.requests.Keys == st.requests.Keys
      && (forall k :: k in st.requests && k != id ==> o.after.requests[k] == st.requests[k])
      && var r' := o.after.requests[id];
      && r'.status == Approved && r'.rejectReason == None
      && r'.productId == body.productId.value && r'.productIds == ids && r'.quantity == |ids|
      && r'.productName == (if Truthy(body.productName) then body.productName.value else st.requests[id].productName)
      && r'.approvedBy ==
           (if Truthy(body.approvedBy) then body.approvedBy
            else if body.approvedByName.Some? then body.approvedByName else st.requests[id].approvedBy)
      && r'.approvedByName ==
           (if Truthy(body.approvedByName) then body.approvedByName
            else if body.approvedBy.Some? then body.approvedBy else st.requests[id].approvedByName)
      && r'.message == (if Truthy(body.message) then body.message else st.requests[id].message)
      && r'.userEmail == st.requests[id].userEmail
      && r'.category == st.requests[id].category && r'.subcategory == st.requests[id].subcategory
      && r'.unit == st.requests[id].unit && r'.approvedAt == st.requests[id].approvedAt
    ensures id in st.requests && body.status == "rejected" ==>
      && o.response.Ok?
      && o.after.assets == st.assets
      && o.after.purchases == st.purchases
      && o.after.requests.Keys == st.requests.Keys
      && (forall k :: k in st.requests && k != id ==> o.after.requests[k] == st.requests[k])
      && o.after.requests[id] == st.requests[id].(status := Rejected,
           rejectReason := Some(if Truthy(body.reason) then body.reason.value else "No reason provided"))
  {
    if id !in st.requests then Outcome(st, Err(NotFound("Asset request")))
    else
      var r := st.requests[id];
      if body.status == "approved" then
        match ApprovalError(r, body)
        case Some(e) => Outcome(st, Err(e))
        case None =>
          var ids := body.productIds.value;
          var n := EffectiveQuantity(body.quantity, r.quantity, |ids|);
          Outcome(st.(assets := Allocate(st.assets, body.productId.value, n, ids),
                      requests := st.requests[id := ApprovedRequest(r, body)]), Ok)
      else if body.status == "rejected" then
        Outcome(st.(requests := st.requests[id := RejectedRequest(r, body.reason)]), Ok)
      else Outcome(st, Err(InvalidStatus))
  }

  /**
    Conditional preservation for the status approval: if each submitted id sits
    exactly once in the asset's pool and the counter matched the pool, they still match.
   */
  lemma StatusApproveKeepsCounter(st: State, id: string, body: StatusUpdate)
    requires id in st.requests && body.status == "approved"
    requires UpdateStatus(st, id, body).response.Ok?
    requires body.productId.value in st.assets && CounterMatchesPool(st.assets[body.productId.value])
    requires forall i :: 0 <= i < |body.productIds.value| ==>
      Occurrences(st.assets[body.productId.value].assetIds, body.productIds.value[i]) == 1
    ensures CounterMatchesPool(UpdateStatus(st, id, body).after.assets[body.productId.value])
  {
    AllocateKeepsCounter(st.assets, body.productId.value, body.productIds.value);
  }

  /**
    There is no "already approved" guard: approving an approved request again
    with another valid id list succeeds and lowers the counter a second time.
   */
  lemma StatusApproveRepeats(st: State, id: string, first: StatusUpdate, second: StatusUpdate)
    requires id in st.requests && first.status == "approved" && second.status == "approved"
    requires UpdateStatus(st, id, first).response.Ok?
    requires Truthy(second.productId) && second.productIds.Some? && NoDuplicates(second.productIds.value)
    requires second.quantity == Some(|second.productIds.value|) && |second.productIds.value| >= 1
    requires first.productId == second.productId && first.productId.value in st.assets
    ensures var mid := UpdateStatus(st, id, first).after;
      var fin := UpdateStatus(mid, id, second);
      && mid.requests[id].status == Approved
      && fin.response.Ok?
      && fin.after.assets[first.productId.value].quantity
         == st.assets[first.productId.value].quantity - |first.productIds.value| - |second.productIds.value|
  {
  }

  /**
    Re-approving with the same body pulls nothing, because its ids already
    left the pool, yet lowers the counter again: a counter that matched the
    pool after the first approval no longer does.
   */
  lemma StatusReapproveDesyncsCounter(st: State, id: string, body: StatusUpdate)
    requires id in st.requests && body.status == "approved"
    requires UpdateStatus(st, id, body).response.Ok?
    requires body.productId.value in st.assets && |body.productIds.value| >= 1
    ensures var mid := UpdateStatus(st, id, body).after;
      var fin := UpdateStatus(mid, id, body);
      var p := body.productId.value;
      && fin.response.Ok?
      && fin.after.assets[p].assetIds == mid.assets[p].assetIds
      && fin.after.assets[p].quantity == mid.assets[p].quantity - |body.productIds.value|
      && (CounterMatchesPool(mid.assets[p]) ==> !CounterMatchesPool(fin.after.assets[p]))
  {
    var mid := UpdateStatus(st, id, body).after;
    KeepNothing(mid.assets[body.productId.value].assetIds, Elems(body.productIds.value));
  }

  /** Rejecting twice with the same body is the same as rejecting once. */
  lemma RejectIdempotent(st: State, id: string, body: StatusUpdate)
    requires id in st.requests && body.status == "rejected"
    ensures var once := UpdateStatus(st, id, body).after;
      UpdateStatus(once, id, body) == Outcome(once, Ok)
  {
    var once := UpdateStatus(st, id, body).after;
    var r1 := once.requests[id];
    assert RejectedRequest(r1, body.reason) == r1;
    assert once.requests[id := r1] == once.requests;
  }
}

=== FILE: seqs.dfy ===
/**
  Sequence facts shared by the ledger and the read views: order-preserving
  filtering (MongoDB's `$pull ... $in` and JavaScript's `filter(!includes)`),
  occurrence counts, duplicate-freedom and subsequences.
 */
module Seqs {

  /** The set of elements of a sequence (JavaScript's `new Set(xs)`). */
  function Elems<T(!new)>(xs: seq<T>): (r: set<T>)
    ensures forall x :: x in r <==> x in xs
  {
    set x | x in xs
  }

  /** No element occurs twice. */
  predicate NoDuplicates<T(==,!new)>(xs: seq<T>) {
    forall i, j :: 0 <= i < j < |xs| ==> xs[i] != xs[j]
  }

  /** How often `x` occurs in `xs`. */
  function Occurrences<T(==,!new)>(xs: seq<T>, x: T): (n: nat) {
    multiset(xs)[x]
  }

  /** The elements of `s` that are not in `drop`, in their original order and with their multiplicity. */
  function Keep<T(==,!new)>(s: seq<T>, drop: set<T>): (r: seq<T>)
    ensures |r| <= |s|
    ensures forall x :: x in r <==> x in s && x !in drop
  {
    if s == [] then []
    else if s[0] in drop then Keep(s[1..], drop)
    else [s[0]] + Keep(s[1..], drop)
  }

  /** How many positions of `s` hold an element of `d`. */
  function CountIn<T(==,!new)>(s: seq<T>, d: set<T>): (n: nat)
    ensures n <= |s|
  {
    if s == [] then 0
    else (if s[0] in d then 1 else 0) + CountIn(s[1..], d)
  }

  /** `a` is `b` with some positions deleted (order kept, multiplicity not exceeded). */
  predicate IsSubsequence<T(==,!new)>(a: seq<T>, b: seq<T>)
    decreases |b|
  {
    if a == [] then true
    else if b == [] then false
    else IsSubsequence(a, b[1..]) || (a[0] == b[0] && IsSubsequence(a[1..], b[1..]))
  }

  /** Keeping drops exactly the occurrences of dropped elements and no others. */
  lemma {:induction false} KeepOccurrences<T(!new)>(s: seq<T>, drop: set<T>, x: T)
    ensures Occurrences(Keep(s, drop), x) == if x in drop then 0 else Occurrences(s, x)
  {
    if s != [] {
      KeepOccurrences(s[1..], drop, x);
      assert s == [s[0]] + s[1..];
      assert multiset(s) == multiset{s[0]} + multiset(s[1..]);
      if s[0] !in drop {
        assert multiset([s[0]] + Keep(s[1..], drop)) == multiset{s[0]} + multiset(Keep(s[1..], drop));
      }
    }
  }

  /** Keeping is order preserving: its result is a subsequence of its input. */
  lemma {:induction false} KeepIsSubsequence<T(!new)>(s: seq<T>, drop: set<T>)
    ensures IsSubsequence(Keep(s, drop), s)
  {
    if s != [] {
      KeepIsSubsequence(s[1..], drop);
      if s[0] !in drop {
        assert ([s[0]] + Keep(s[1..], drop))[1..] == Keep(s[1..], drop);
      }
    }
  }

  /** Keeping with nothing in `s` to drop returns `s` itself. */
  lemma {:induction false} KeepNothing<T(!new)>(s: seq<T>, drop: set<T>)
    requires forall x :: x in s ==> x !in drop
    ensures Keep(s, drop) == s
  {
    if s != [] {
      assert forall x :: x in s[1..] ==> x in s;
      KeepNothing(s[1..], drop);
      assert s == [s[0]] + s[1..];
    }
  }

  /** Keeping removes exactly the positions that hold dropped elements. */
  lemma {:induction false} KeepLength<T(!new)>(s: seq<T>, drop: set<T>)
    ensures |Keep(s, drop)| == |s| - CountIn(s, drop)
  {
    if s != [] {
      KeepLength(s[1..], drop);
    }
  }

  /** Adding one new element to the counted set adds its occurrences to the count. */
  lemma {:induction false} CountInAddOne<T(!new)>(s: seq<T>, d: set<T>, x: T)
    requires x !in d
    ensures CountIn(s, d + {x}) == CountIn(s, d) + Occurrences(s, x)
  {
    if s != [] {
      CountInAddOne(s[1..], d, x);
      assert s == [s[0]] + s[1..];
      assert multiset(s) == multiset{s[0]} + multiset(s[1..]);
    }
  }

  /**
    If `ids` are pairwise distinct and each occurs exactly once in `pool`,
    exactly `|ids|` positions of `pool` hold one of them.
   */
  lemma {:induction false} CountInDistinct<T(!new)>(pool: seq<T>, ids: seq<T>)
    requires NoDuplicates(ids)
    requires forall i :: 0 <= i < |ids| ==> Occurrences(pool, ids[i]) == 1
    ensures CountIn(pool, Elems(ids)) == |ids|
  {
    if ids == [] {
      CountInNone(pool, Elems(ids));
    } else {
      var init := ids[..|ids| - 1];
      var last := ids[|ids| - 1];
      assert ids == init + [last];
      assert NoDuplicates(init);
      assert forall i :: 0 <= i < |init| ==> init[i] == ids[i];
      CountInDistinct(pool, init);
      assert last !in Elems(init) by {
        forall i | 0 <= i < |init| ensures init[i] != last {
          assert ids[i] != ids[|ids| - 1];
        }
      }
      assert Elems(ids) == Elems(init) + {last};
      CountInAddOne(pool, Elems(init), last);
    }
  }

  /** Nothing is counted against the empty set. */
  lemma {:induction false} CountInNone<T(!new)>(s: seq<T>, d: set<T>)
    requires d == {}
    ensures CountIn(s, d) == 0
  {
    if s != [] {
      CountInNone(s[1..], d);
    }
  }

  /** `new Set(xs).size === xs.length` holds exactly when `xs` has no duplicates. */
  lemma {:induction false} DistinctSize<T(!new)>(xs: seq<T>)
    ensures |Elems(xs)| == |xs| <==> NoDuplicates(xs)
  {
    if xs == [] {
    } else {
      var t := xs[1..];
      DistinctSize(t);
      assert xs == [xs[0]] + t;
      assert Elems(xs) == {xs[0]} + Elems(t);
      if xs[0] in t {
        var j :| 0 <= j < |t| && t[j] == xs[0];
        assert xs[0] == xs[j + 1];
        assert !NoDuplicates(xs);
        assert Elems(xs) == Elems(t);
        assert |Elems(t)| <= |t| by { ElemsSize(t); }
      } else {
        assert |Elems(xs)| == |Elems(t)| + 1;
        if NoDuplicates(xs) {
          assert NoDuplicates(t) by {
            forall i, j | 0 <= i < j < |t| ensures t[i] != t[j] {
              assert t[i] == xs[i + 1] && t[j] == xs[j + 1];
            }
          }
        }
        if NoDuplicates(t) {
          forall i, j | 0 <= i < j < |xs| ensures xs[i] != xs[j] {
            if i == 0 {
              assert xs[j] == t[j - 1];
            } else {
              assert xs[i] == t[i - 1] && xs[j] == t[j - 1];
            }
          }
        }
      }
    }
  }

  /** A sequence has at most as many distinct elements as positions. */
  lemma {:induction false} ElemsSize<T(!new)>(xs: seq<T>)
    ensures |Elems(xs)| <= |xs|
  {
    if xs != [] {
      ElemsSize(xs[1..]);
      assert Elems(xs) == {xs[0]} + Elems(xs[1..]);
    }
  }

  /** Prepending an element that does not occur keeps a sequence duplicate-free. */
  lemma NoDuplicatesCons<T(!new)>(x: T, t: seq<T>)
    requires x !in t && NoDuplicates(t)
    ensures NoDuplicates([x] + t)
  {
    var s := [x] + t;
    forall i, j | 0 <= i < j < |s| ensures s[i] != s[j] {
      assert s[j] == t[j - 1];
      if i > 0 {
        assert s[i] == t[i - 1];
      }
    }
  }

  /** The tail of a duplicate-free sequence is duplicate-free and lacks the head. */
  lemma NoDuplicatesTail<T(!new)>(s: seq<T>)
    requires s != [] && NoDuplicates(s)
    ensures NoDuplicates(s[1..]) && s[0] !in s[1..]
  {
    var t := s[1..];
    forall i, j | 0 <= i < j < |t| ensures t[i] != t[j] {
      assert t[i] == s[i + 1] && t[j] == s[j + 1];
    }
    forall i | 0 <= i < |t| ensures t[i] != s[0] {
      assert t[i] == s[i + 1];
    }
  }

  /** Filtering a duplicate-free sequence keeps it duplicate-free. */
  lemma {:induction false} KeepNoDuplicates<T(!new)>(s: seq<T>, drop: set<T>)
    requires NoDuplicates(s)
    ensures NoDuplicates(Keep(s, drop))
  {
    if s != [] {
      NoDuplicatesTail(s);
      KeepNoDuplicates(s[1..], drop);
      if s[0] !in drop {
        NoDuplicatesCons(s[0], Keep(s[1..], drop));
      }
    }
  }
}

=== FILE: views.dfy ===
/**
  The two derived reads of src/routes/asset.routes.ts: the unit-id pool
  stored on an asset, and the available-ids resolver that recomputes
  availability from purchase history minus the ids approved requests consume.
 */
module Views {
  import opened Wrappers
  import opened Seqs
  import opened Inventory
  import opened Purchases
  import opened Requests

  // ---------------------------------------------------------------------------
  // GET /assets/:productId/asset-ids
  // ---------------------------------------------------------------------------

  /** The stored pool of an asset, or `[]` when there is no such asset. */
  function StoredAssetIds(st: State, pid: string): (ids: seq<string>)
    ensures pid !in st.assets ==> ids == []
    ensures pid in st.assets ==> ids == st.assets[pid].assetIds
  {
    if pid in st.assets then st.assets[pid].assetIds else []
  }

  /** Only the pull-based approvals change a stored pool, by removing exactly the approved ids. */
  lemma StatusApprovePullsPool(st: State, id: string, body: StatusUpdate, pid: string)
    requires id in st.requests && body.status == "approved"
    requires UpdateStatus(st, id, body).response.Ok?
    ensures StoredAssetIds(UpdateStatus(st, id, body).after, pid) ==
      if pid == body.productId.value then Keep(StoredAssetIds(st, pid), Elems(body.productIds.value))
      else StoredAssetIds(st, pid)
  {
  }

  /** The legacy approval decrements the counter only: every stored pool stays as it was. */
  lemma LegacyApproveKeepsPools(st: State, pid: string, reqId: string, approvedBy: string, now: int)
    ensures StoredAssetIds(LegacyApprove(st, reqId, approvedBy, now).after, pid) == StoredAssetIds(st, pid)
  {
  }

  /** Purchase create, update and delete move counters only: every stored pool stays as it was. */
  lemma PurchasesKeepPools(st: State, pid: string, purchaseId: string, p: Purchase, patch: PurchasePatch)
    ensures StoredAssetIds(UpdatePurchase(st, purchaseId, patch).after, pid) == StoredAssetIds(st, pid)
    ensures StoredAssetIds(DeletePurchase(st, purchaseId).after, pid) == StoredAssetIds(st, pid)
    ensures purchaseId !in st.purchases && (forall i :: 0 <= i < |p.items| ==> ValidItem(p.items[i])) ==>
      StoredAssetIds(CreatePurchase(st, purchaseId, p).after, pid) == StoredAssetIds(st, pid)
  {
  }

  // ---------------------------------------------------------------------------
  // GET /assets/available-ids/:id
  // ---------------------------------------------------------------------------

  /** An approved request for product `pid` consumes ids; pending and rejected ones do not. */
  predicate Consumes(r: AssetRequest, pid: string) {
    r.productId == pid && r.status == Approved
  }

  /** The ids the approved requests for `pid` consume: each one's (truthy) product id and its unit ids. */
  function UsedIds(requests: map<string, AssetRequest>, pid: string): (used: set<string>)
    ensures forall x :: x in used <==>
      exists rid :: rid in requests && Consumes(requests[rid], pid)
        && ((x == requests[rid].productId && x != "") || x in requests[rid].productIds)
  {
    (set rid | rid in requests && Consumes(requests[rid], pid) && requests[rid].productId != "" :: requests[rid].productId)
    + (set rid, x | rid in requests && Consumes(requests[rid], pid) && x in requests[rid].productIds :: x)
  }

  /**
    Available ids: the purchased listing for `pid` with every used id filtered
    out, order and multiplicity kept; an empty listing answers `[]` at once.
   */
  function AvailableIds(found: seq<Purchase>, requests: map<string, AssetRequest>, pid: string): (r: seq<string>)
    ensures IsSubsequence(r, PurchasedIds(found, pid))
    ensures forall x :: x in r <==> x in PurchasedIds(found, pid) && x !in UsedIds(requests, pid)
  {
    var all := PurchasedIds(found, pid);
    if |all| == 0 then []
    else
      var used := UsedIds(requests, pid);
      KeepIsSubsequence(all, used);
      Keep(all, used)
  }

  /** Every unused purchased id stays available as often as it was purchased; used ids vanish entirely. */
  lemma AvailableIdsCounts(found: seq<Purchase>, requests: map<string, AssetRequest>, pid: string, x: string)
    ensures Occurrences(AvailableIds(found, requests, pid), x) ==
      if x in UsedIds(requests, pid) then 0 else Occurrences(PurchasedIds(found, pid), x)
  {
    var all := PurchasedIds(found, pid);
    if |all| != 0 {
      KeepOccurrences(all, UsedIds(requests, pid), x);
    }
  }

  /**
    Over the purchases the query returns, an id is available exactly when
    some stored purchase has an item for `pid` carrying it and no approved
    request for `pid` uses it.
   */
  lemma AvailableFromStore(st: State, order: seq<string>, pid: string, x: string)
    requires ListsFor(order, st.purchases, pid)
    ensures x in AvailableIds(Found(st.purchases, order), st.requests, pid) <==>
      && (exists k, i :: k in st.purchases && 0 <= i < |st.purchases[k].items|
            && st.purchases[k].items[i].productId == pid && x in st.purchases[k].items[i].assetIds)
      && x !in UsedIds(st.requests, pid)
  {
    var found := Found(st.purchases, order);
    PurchasedIdsMember(found, pid, x);
    if exists k, i :: k in st.purchases && 0 <= i < |st.purchases[k].items|
         && st.purchases[k].items[i].productId == pid && x in st.purchases[k].items[i].assetIds {
      var k, i :| k in st.purchases && 0 <= i < |st.purchases[k].items|
        && st.purchases[k].items[i].productId == pid && x in st.purchases[k].items[i].assetIds;
      assert HasItemFor(st.purchases[k], pid);
      var j :| 0 <= j < |order| && order[j] == k;
      assert found[j].items[i] == st.purchases[k].items[i];
    }
    if x in PurchasedIds(found, pid) {
      var j, i :| 0 <= j < |found| && 0 <= i < |found[j].items|
        && found[j].items[i].productId == pid && x in found[j].items[i].assetIds;
      assert st.purchases[order[j]].items[i] == found[j].items[i];
    }
  }

  /** Whatever order the query returns the purchases in, the same ids are available, as often. */
  lemma AvailableIgnoresOrder(st: State, o1: seq<string>, o2: seq<string>, pid: string)
    requires ListsFor(o1, st.purchases, pid) && ListsFor(o2, st.purchases, pid)
    ensures multiset(AvailableIds(Found(st.purchases, o1), st.requests, pid))
      == multiset(AvailableIds(Found(st.purchases, o2), st.requests, pid))
  {
    SameListing(st.purchases, o1, o2, pid);
    forall x | true
      ensures multiset(AvailableIds(Found(st.purchases, o1), st.requests, pid))[x]
        == multiset(AvailableIds(Found(st.purchases, o2), st.requests, pid))[x]
    {
      AvailableIdsCounts(Found(st.purchases, o1), st.requests, pid, x);
      AvailableIdsCounts(Found(st.purchases, o2), st.requests, pid, x);
    }
  }

  /** With no approved request for the product, every purchased id is available, in purchase order. */
  lemma AvailableWithoutApprovals(found: seq<Purchase>, requests: map<string, AssetRequest>, pid: string)
    requires forall rid :: rid in requests ==> !Consumes(requests[rid], pid)
    ensures AvailableIds(found, requests, pid) == PurchasedIds(found, pid)
  {
    var all := PurchasedIds(found, pid);
    assert UsedIds(requests, pid) == {};
    if |all| != 0 {
      KeepNothing(all, UsedIds(requests, pid));
    }
  }

  /** Once a status approval stores unit ids for product `p`, none of them is available for `p`. */
  lemma StatusApproveHidesIds(st: State, id: string, body: StatusUpdate, found: seq<Purchase>)
    requires id in st.requests && body.status == "approved"
    requires UpdateStatus(st, id, body).response.Ok?
    ensures forall x :: x in body.productIds.value ==>
      x !in AvailableIds(found, UpdateStatus(st, id, body).after.requests, body.productId.value)
  {
    var after := UpdateStatus(st, id, body).after.requests;
    var pid := body.productId.value;
    assert Consumes(after[id], pid);
    forall x | x in body.productIds.value ensures x in UsedIds(after, pid) {
      assert x in after[id].productIds;
    }
  }

  /** Two request collections whose consuming requests are the same use the same ids. */
  lemma SameConsumersSameUsed(a: map<string, AssetRequest>, b: map<string, AssetRequest>, pid: string)
    requires a.Keys == b.Keys
    requires forall rid :: rid in a ==> (Consumes(a[rid], pid) <==> Consumes(b[rid], pid))
    requires forall rid :: rid in a && Consumes(a[rid], pid) ==> a[rid] == b[rid]
    ensures UsedIds(a, pid) == UsedIds(b, pid)
  {
  }

  /**
    Rejecting a request that was not approved changes no one's availability:
    pending and rejected requests consume nothing.
   */
  lemma RejectUnapprovedKeepsAvailability(st: State, id: string, body: StatusUpdate, found: seq<Purchase>, pid: string)
    requires id in st.requests && st.requests[id].status != Approved && body.status == "rejected"
    ensures AvailableIds(found, UpdateStatus(st, id, body).after.requests, pid) == AvailableIds(found, st.requests, pid)
  {
    var after := UpdateStatus(st, id, body).after.requests;
    assert !Consumes(after[id], pid);
    SameConsumersSameUsed(st.requests, after, pid);
  }

  /**
    Rejecting an approved request hands its unit ids back to the resolver
    (an id no other approved request for the product uses becomes available
    again) while the asset's counter and pool stay as the approval left them:
    the resolver and the stored pool drift apart.
   */
  lemma RejectApprovedReopensIds(st: State, id: string, body: StatusUpdate, found: seq<Purchase>, x: string)
    requires id in st.requests && st.requests[id].status == Approved && body.status == "rejected"
    requires x in st.requests[id].productIds && x in PurchasedIds(found, st.requests[id].productId)
    requires forall rid :: rid in st.requests && rid != id && Consumes(st.requests[rid], st.requests[id].productId) ==>
      x != st.requests[rid].productId && x !in st.requests[rid].productIds
    ensures x !in AvailableIds(found, st.requests, st.requests[id].productId)
    ensures x in AvailableIds(found, UpdateStatus(st, id, body).after.requests, st.requests[id].productId)
    ensures UpdateStatus(st, id, body).after.assets == st.assets
  {
    var pid := st.requests[id].productId;
    var after := UpdateStatus(st, id, body).after.requests;
    assert Consumes(st.requests[id], pid);
    assert x in UsedIds(st.requests, pid);
    assert !Consumes(after[id], pid);
  }
}

=== FILE: wrappers.dfy ===
/** Optional values: a document field that may be absent. */
module Wrappers {

  datatype Option<+T> = None | Some(value: T) {

    /** The value, or `default` when absent. */
    function GetOr(default: T): (r: T) {
      match this
      case Some(v) => v
      case None => default
    }
  }
}
